=== FILE: README.md ===
# Event dispatcher model

A Dafny model of the event dispatcher of a small JavaScript events library
(`src/Dispatcher.js`). A dispatcher keeps two registries:

- `listeners` maps exact event names to their listeners.
- `wildcardListeners` maps patterns containing `*` to their listeners.

Each registry is a JavaScript `Map` from a name to a `Set` of listeners. The
dispatcher does four things:

- `listen` registers a listener, either a callback function, a `Listener`
  instance, or a name the IoC container resolves. It routes each event name
  by whether it contains `*`.
- `forget` removes a name.
- `hasListeners` and `getListeners` look names up. `getListeners` puts the
  listeners of every matching pattern first, then the exact ones.
- `fire` / `_dispatchEvent` call the listeners in order and stop after the
  first one that returns `false` when halting is on.

The model is functional. A registry is an insertion-ordered association list
(`Registries.Registry`, a `seq<Entry>`) with JavaScript `Map` semantics:

- Setting an existing key keeps its place.
- A deleted key that is set again moves to the end.

Listeners are identities (`Callback(id)`, `Handler(id)`). Two things the
dispatcher cannot see are passed in as oracles:

- what the IoC container answers when a string is resolved (`make(j)`, for
  the name at position `j` of the events array);
- what each listener returns when it is called (`outcome(k)`, for the
  listener at position `k` of the snapshot).

Dispatch is a pure function. Its result is the sequence of listeners invoked.

Wildcard matching is modelled twice and proved equal:

- the regular expression `'^' + pattern.split('*').join('.*') + '$'` that the
  code builds, given a meaning as a language of strings (`Wildcard.RegexMatches`);
- a recursive glob matcher (`Wildcard.Glob`), which is what lookups use.

In that language `*` matches any run of characters that holds no JavaScript
line terminator (`\n`, `\r`, U+2028, U+2029). An unescaped `.` matches any
single character except a line terminator. The matching is anchored at both
ends. Here a character is a Dafny `char`, one Unicode scalar value; see
"## Left out" for characters above U+FFFF.

Modules:

- `Wrappers`: `Option` and `Result`.
- `Listeners`: listener identities and `makeListener`.
- `Wildcard`: `_containsWildcard`, the regular expression and the matcher.
- `Registries`: the insertion-ordered map of sets.
- `EventDispatcher`: `listen`, `forget`, `hasListeners`, `getListeners`.
- `Dispatch`: `_dispatchEvent` and `fire`.
- `Scenarios`: the behaviours the integration tests check, stated over the
  model.

`hasListeners` checks the literal key in both registries and matches no
pattern against the name (src/Dispatcher.js:177-180).
`Scenarios.HasListenersIsLiteral` shows a name that only a stored pattern
matches: `getListeners` finds listeners for it, `hasListeners` answers false.

## Model

| member | source | states |
|---|---|---|
| Listeners.MakeListener | src/Dispatcher.js:206-219 | a string is resolved through the IoC container first; the result is a listener exactly when the value is a function or a `Listener` instance, and it is that same value; anything else throws `TypeError`, and a failing resolution throws its own error |
| Listeners.MakeListenerKeepsGiven | src/Dispatcher.js:206-219 | a function or `Listener` instance comes back as the same reference without consulting the container |
| Wildcard.IndexOf | src/Dispatcher.js:345-347 | `indexOf` answers -1 exactly when the character is absent, and otherwise the position of its first occurrence |
| Wildcard.ContainsWildcard | src/Dispatcher.js:345-347 | a name holds a wildcard exactly when `*` occurs in it |
| Wildcard.Split | src/Dispatcher.js:383 | `split('*')` yields at least one piece and no piece contains the separator |
| Wildcard.JoinSplit | src/Dispatcher.js:383 | joining the pieces of a split with the separator gives back the original string |
| Wildcard.SplitJoinTranslates | src/Dispatcher.js:383 | `split('*').join('.*')` replaces every `*` by `.*` and keeps every other character |
| Wildcard.ParseTranslate | src/Dispatcher.js:383 | the built regular expression parses into one term per pattern character: `*` becomes "any character, repeated", `.` becomes "any character", others become themselves |
| Wildcard.GlobIsLanguage | src/Dispatcher.js:382-384 | the glob matcher accepts exactly the strings in the language of the pattern's regular expression |
| Wildcard.MatchesWildcard | src/Dispatcher.js:382-384 | the answer is exactly whether the anchored regular expression built from the pattern matches the whole event name |
| Wildcard.TrailingStar | src/Dispatcher.js:382-384 | a lone `*` matches exactly the names with no line terminator |
| Wildcard.PrefixPattern | src/Dispatcher.js:382-384 | `prefix*` matches exactly the names that begin with a match of the prefix: anchored at the start, open at the end |
| Wildcard.PatternMatchesItself | src/Dispatcher.js:382-384 | every pattern matches its own text, including one holding a line terminator, which matches itself literally |
| Wildcard.DotStarExamples | src/Dispatcher.js:382-384 | `A.*` matches `A.x`, `A.` and `Ax` but not `A` or `B.x` |
| Wildcard.InnerStarExamples | src/Dispatcher.js:382-384 | `a.*.c` matches `a.x.c` but not `a.x.y`: the end of the name is anchored |
| Registries.Get | src/Dispatcher.js:295-299 | `Map.get` finds nothing exactly when the key is absent |
| Registries.Has | src/Dispatcher.js:295 | `Map.has` is true exactly when the key is one of the registry's keys |
| Registries.GetEntry | src/Dispatcher.js:299 | with unique keys, looking up a stored key yields the set stored in that entry |
| Registries.Set | src/Dispatcher.js:307 | `Map.set` stores the value under the key, leaves every other key's value unchanged, and keeps the key's position or appends it at the end |
| Registries.SetKeepsUnique | src/Dispatcher.js:307 | setting a key never duplicates a key |
| Registries.SetTwice | src/Dispatcher.js:296-307 | setting a key twice is the same as setting it once to the second value, which is why creating the empty set first leaves no trace |
| Registries.Delete | src/Dispatcher.js:164-166 | `Map.delete` removes the key and nothing else: other values and the order of the other keys are kept |
| Registries.DeleteKeepsWellFormed | src/Dispatcher.js:164-166 | deleting a key keeps keys unique and sets non-empty and duplicate-free |
| Registries.AddListener | src/Dispatcher.js:291-308 | the set under the key is created when missing; a listener already in it changes nothing, and any other listener is appended at the end; the key is then present, every other key is unchanged, and a new key goes last |
| Registries.AddKeepsWellFormed | src/Dispatcher.js:292-306 | after adding, every stored set is still non-empty and duplicate-free and keys are still unique |
| Registries.AddIdempotent | src/Dispatcher.js:300-304 | adding the same listener twice is the same as adding it once |
| Registries.AddRegistersOnce | src/Dispatcher.js:291-308 | after adding, the listener occurs exactly once in its key's set, and that set extends the previous one |
| EventDispatcher.New | src/Dispatcher.js:48-55 | a new dispatcher has no keys in either registry, `hasListeners` is false for every name, and the dispatcher invariant holds |
| EventDispatcher.SetupWildcardListener | src/Dispatcher.js:291-308 | it fails exactly when `makeListener` throws, with that error; on success only the wildcard registry changes: a listener already in the pattern's set leaves it as it was, otherwise exactly that listener is appended, and every other pattern keeps its set |
| EventDispatcher.SetupRegularListener | src/Dispatcher.js:318-335 | the same as the wildcard setup, but for the exact registry: a listener already in the name's set changes nothing, otherwise it alone is appended, and every other name keeps its set |
| EventDispatcher.Setup | src/Dispatcher.js:107-117 | one step of the loop fails exactly when `makeListener` throws; on success, in the registry the name routes to, the name's set is unchanged if it already held the resolved listener and otherwise gains exactly that listener at the end, every other key keeps its set, and the other registry is unchanged |
| EventDispatcher.SetupTouchesOneKey | src/Dispatcher.js:107-117 | one loop step changes only its own name, and only in the registry that name routes to |
| EventDispatcher.Listen | src/Dispatcher.js:101-118 | `listen` throws exactly when the listener fails to resolve for some name; it keeps the dispatcher invariant, and every name not in the events leaves both registries' lookups unchanged, every name processed before the first failure holds the listener resolved for it, and every listener under any name afterwards was there before or was resolved at a position holding that name |
| EventDispatcher.ListenFrom | src/Dispatcher.js:101-118 | `listen` throws exactly when the listener fails to resolve for some name |
| EventDispatcher.ListenFailsAtFirst | src/Dispatcher.js:101-118 | when `listen` throws, the error is that of the first failing name, every earlier name resolved, and the failing name and every later name keep their lookups |
| EventDispatcher.FirstFailure | src/Dispatcher.js:101-118 | when `listen` throws, there is a first name whose listener fails to resolve, with the error thrown, and every earlier name resolved |
| EventDispatcher.ListenFailsAt | src/Dispatcher.js:292-296 | when every name before position `j` resolves and the one at `j` does not, `listen` throws that error, and every name outside the earlier ones keeps its lookups, because `makeListener` throws before the set is created |
| EventDispatcher.ListenRoutes | src/Dispatcher.js:107-117 | `listen` never changes a name containing `*` in the exact registry, nor any other name in the wildcard registry |
| EventDispatcher.ListenTouchesOnlyNames | src/Dispatcher.js:101-118 | `listen` leaves every name outside the events array untouched in both registries |
| EventDispatcher.ListenKeepsValid | src/Dispatcher.js:101-118 | `listen` keeps the dispatcher invariant: each key routed to the right registry, sets non-empty and duplicate-free; every existing set only grows at its end |
| EventDispatcher.ListenRegisters | src/Dispatcher.js:101-118 | each name processed before any failure holds its resolved listener, in the registry it routes to, and `hasListeners` is true for it |
| EventDispatcher.SetupAddsOnlyResolved | src/Dispatcher.js:291-335 | after one setup step a name holds only the listeners it held before, plus, under the step's own name, the listener the step resolved |
| EventDispatcher.ListenAddsOnlyResolved | src/Dispatcher.js:107-117 | a listener found under a name after the loop was there before, or is the listener resolved at some position whose name is that name |
| EventDispatcher.ListenOnlyAddsResolved | src/Dispatcher.js:107-117 | the same for every name and listener at once: the loop adds nothing but the listeners it resolved, each under its own name |
| EventDispatcher.ListenAgainChangesNothing | src/Dispatcher.js:300-304 | when every name already holds the listener, `listen` changes nothing and throws nothing |
| EventDispatcher.ListenIdempotent | src/Dispatcher.js:101-118 | listening twice with a listener that resolves to the same reference is the same as listening once |
| EventDispatcher.ListenRejectsNonListener | src/Dispatcher.js:215-218 | a value that is not a listener throws `TypeError` at the first name, before any set is created, and the dispatcher is left unchanged |
| EventDispatcher.Forget | src/Dispatcher.js:162-168 | `forget` removes the name from the registry it routes to; the other registry is unchanged, every other name keeps its listeners, and the other keys keep their order |
| EventDispatcher.ForgetClears | src/Dispatcher.js:162-168 | `forget` keeps the dispatcher invariant, and afterwards `hasListeners` is false for the name |
| EventDispatcher.ForgetThenListenMovesToEnd | src/Dispatcher.js:162-168 | a name forgotten and then listened to again moves to the end of its registry's iteration order |
| EventDispatcher.HasListeners | src/Dispatcher.js:177-180 | in a valid dispatcher, true exactly when the literal name is a key of the registry it routes to; no pattern is matched |
| EventDispatcher.ValidLookups | src/Dispatcher.js:177-180 | in a valid dispatcher, a key found in a registry is routed to that registry and holds a non-empty set |
| EventDispatcher.WildcardListenersFor | src/Dispatcher.js:358-370 | a listener is in the result exactly when it is stored under some pattern that matches the name |
| EventDispatcher.WildcardConcat | src/Dispatcher.js:358-370 | the lookup follows the registry's insertion order: patterns registered earlier contribute their listeners earlier |
| EventDispatcher.WildcardBlocks | src/Dispatcher.js:358-370 | a matching pattern's set appears as one contiguous block, after those of earlier matching patterns and before those of later ones |
| EventDispatcher.GetListeners | src/Dispatcher.js:189-195 | the result is the wildcard lookup, in registry insertion order, followed by exactly the exact-name set, or nothing when there is none; a listener is in the first part exactly when a matching pattern stores it |
| EventDispatcher.PatternFindsItself | src/Dispatcher.js:189-195 | looking up any stored pattern's own text finds that pattern's listeners |
| Dispatch.Normalize | src/Dispatcher.js:271-273 | a `null` or `undefined` result becomes `true`; every other result is kept |
| Dispatch.Halts | src/Dispatcher.js:277 | a call halts the loop exactly when halting is on and it returned `false`; `true`, a missing result and non-boolean values never halt |
| Dispatch.Invoke | src/Dispatcher.js:259-280 | the listeners called from a position are a prefix of the rest of the snapshot, in order, and the loop ends before the end only right after a call that halts or throws |
| Dispatch.InvokeIsRun | src/Dispatcher.js:255-281 | the dispatch calls a prefix of the snapshot in order; no call except the last stops it; it ends early only after a stopping call; it raised exactly when the last call threw |
| Dispatch.RunIsUnique | src/Dispatcher.js:255-281 | the listeners and their outcomes determine the run |
| Dispatch.InvokeIsTheRun | src/Dispatcher.js:255-281 | every run with those properties is the one the dispatch computes |
| Dispatch.DispatchEvent | src/Dispatcher.js:255-281 | `_dispatchEvent` calls, in order, a prefix of `getListeners(event)` as described by the run properties |
| Dispatch.RunListeners | src/Dispatcher.js:259-280 | the `for` loop over the snapshot calls a prefix in order, stops right after a `false` when halting or after an exception, and otherwise runs every listener |
| Dispatch.DispatchLoop | src/Dispatcher.js:255-281 | snapshotting the listeners and then running the loop gives the dispatch result |
| Dispatch.Fire | src/Dispatcher.js:143-155 | `fire` dispatches now exactly when not in the background; the dispatch is then the run over `getListeners(event)` for the given halt flag, which `Dispatch.RunIsUnique` shows is the only one |
| Dispatch.FireDefaults | src/Dispatcher.js:143-148 | by default `fire` dispatches now, with halting on |
| Dispatch.NoHaltRunsAll | src/Dispatcher.js:259-280 | with halting off and no exception, every listener runs, in order |
| Dispatch.HaltStopsAtFirstFalse | src/Dispatcher.js:277-279 | with halting on, the dispatch stops right after the first listener that returns `false`: that listener runs and no later one does |
| Scenarios.ListenCallback | tests/integration/DispatcherTest.js:33-52 | after listening with a callback, `hasListeners` is true and the callback is the only listener found |
| Scenarios.ListenSingletonBinding | tests/integration/DispatcherTest.js:113-135 | with a singleton IoC binding, every name listened to holds the one resolved instance and `hasListeners` is true for it; listening again changes nothing |
| Scenarios.ListenWildcardInstance | tests/integration/DispatcherTest.js:94-111 | a `Listener` instance listened to under a pattern is stored as a one-listener set under that pattern, in the wildcard registry |
| Scenarios.ListenFirstInstance | tests/integration/DispatcherTest.js:434-464 | listening by a name whose binding is not a singleton stores the container's first instance as the event's only listener, in the exact registry; `FreshInstancesAreNotDeduplicated` starts from this state |
| Scenarios.PatternLookedUpByItself | tests/integration/DispatcherTest.js:54-73 | for every stored pattern, `hasListeners` is true for the pattern, and its own text finds its listeners |
| Scenarios.ListenPair | tests/integration/DispatcherTest.js:137-168 | listening on an array of two names is two routed steps, taken left to right |
| Scenarios.ListenPatternAndName | src/Dispatcher.js:107-117 | `listen([pattern, name], L)` with any pattern holding `*` and any name without throws nothing and stores `L` once under each key, each in its own registry |
| Scenarios.HasListenersIsLiteral | src/Dispatcher.js:177-180 | with only `A.*` registered, `hasListeners('A.x')` is false while `getListeners('A.x')` finds the pattern's listener |
| Scenarios.ListenPatternThenExact | src/Dispatcher.js:107-117 | listening on `A.*` and then on `A.x` puts the first listener in the wildcard registry and the second in the exact registry, which is the dispatcher `WildcardBeforeExact` looks up |
| Scenarios.WildcardBeforeExact | src/Dispatcher.js:189-195 | with `A.*` and `A.x` registered, `getListeners('A.x')` lists the pattern's listener before the exact one |
| Scenarios.SameListenerTwice | src/Dispatcher.js:189-195 | one callback registered under both `A.*` and `A.x` is found twice, and dispatching `A.x` calls it twice |
| Scenarios.ListenThenForget | tests/integration/DispatcherTest.js:170-187 | after listening on any one name and forgetting it, `hasListeners` is false for that name |
| Scenarios.ForgetOneOfTwo | src/Dispatcher.js:162-168 | after listening on `A` and `B` and forgetting `A`, `hasListeners('A')` is false while `hasListeners('B')` stays true |
| Scenarios.HaltOnThird | tests/integration/DispatcherTest.js:347-384 | with four listeners and the third returning `false`, `fire` calls only the first three; with halting off it calls all four |
| Scenarios.FreshInstancesAreNotDeduplicated | tests/integration/DispatcherTest.js:434-464 | a non-singleton IoC binding yields a new instance on each `listen`, so the same name listened to twice holds two listeners |
| Scenarios.APatternMatchesWord | tests/integration/DispatcherTest.js:245-248 | the test's pattern `A.*` matches `'A.' + word` for every word without a line terminator |
| Scenarios.WildcardWordFiresOnce | tests/integration/DispatcherTest.js:245-274 | after `listen('A.*', L)`, firing `'A.' + word` with no background dispatch invokes `L` exactly once and nothing halts, for every word without a line terminator |
| Scenarios.ListenOrderPattern | src/Dispatcher.js:291-308 | listening on `order.*` on a new dispatcher stores the callback as the pattern's only listener in the wildcard registry, which is the dispatcher `OrderCreated` fires on |
| Scenarios.OrderCreated | src/Dispatcher.js:143-148 | a callback under `order.*` is the one listener invoked, exactly once, when `order.created` is fired |
| Scenarios.BackgroundFireDefers | src/Dispatcher.js:150-154 | in the background, `fire` calls no listener now |

## Left out

- The background branch of `fire` (src/Dispatcher.js:150-154) hands the dispatch to an external timer under a fixed id. It is modelled only as `Deferred`: nothing is called now. The timer's replace-or-queue behaviour is not part of this model.
- `subscribe` and `makeSubscriber` (src/Dispatcher.js:127-133, 231-244) do no more than IoC resolution and a call into the abstract `Subscriber`. They are not modelled.
- The accessors of the two maps (src/Dispatcher.js:62-91), which read or replace a whole registry, are not modelled. The container and timer accessors come from the `IoCAware` and `TimeMasterAware` mixins (src/Dispatcher.js:38-41), which are not part of this model. The model's registries change only through its operations.
- The IoC container is an oracle. `make(j)` is its answer for the name at position `j`, and `None` means `ioc.make` threw. A non-singleton binding is an oracle that answers a different instance each time.
- Listener bodies are oracles, `outcome(k)`. The payload and the event name passed to them, and the `this` binding (src/Dispatcher.js:262-269), are not modelled. An exception is modelled only as ending the dispatch (`Throws`). What propagates to the caller is not modelled.
- Wildcard.MatchesWildcard: requires the pattern to hold no regular-expression syntax other than `.` and `*`. The excluded characters are `^ $ \ + ? | ( ) [ ] { }`. JavaScript would interpret them, or reject the pattern, and full `RegExp` semantics are not modelled. Line terminators are modelled exactly: `.` and `*` do not match them.
- Wildcard.MatchesWildcard: strings are sequences of Unicode scalar values, so `.` consumes one whole character. The regular expression is built without the `u` flag, so in JavaScript `.` consumes one UTF-16 code unit, and a character above U+FFFF is two code units. For names or patterns holding such characters the answers can differ: `A.B*` against `A` U+1F600 `B` is false in JavaScript and true here, and `x..*` against `x` U+1F600 is true in JavaScript and false here. For text within the Basic Multilingual Plane the two agree.
- EventDispatcher.GetListeners: requires every stored pattern to satisfy the same restriction, for the same reason.
- EventDispatcher.WildcardListenersFor: requires the same restriction of every stored pattern.
- Dispatch.DispatchEvent: requires the same restriction, because it looks the listeners up.
- Dispatch.DispatchLoop: requires the same restriction as `Dispatch.DispatchEvent`, because it is the loop form of the same dispatch over the same lookup.
- Dispatch.Fire: requires the same restriction, because it dispatches.
- Sets are copied by value. The code stores the `Set` objects themselves, so a caller holding one could alias it. No operation of the dispatcher exposes them that way, except the map getters, which are not modelled.
- The glue files (`index.js`, `src/Mixins/DispatcherAware.js`, `src/Providers/EventServiceProvider.js`), the `Listener`, `BackgroundListener` and `Subscriber` classes, and the test helpers are not part of this model. `BackgroundListener.handle` always returns `true`, so it is a listener whose outcome is `Bool(true)`.
- EventDispatcher.HasListeners: its contract holds for valid dispatchers, the only ones the operations produce. Its body checks both registries, as the code does.

=== FILE: dispatch.dfy ===
/**
 * Dispatching an event: `_dispatchEvent` and the synchronous branch of `fire`.
 *
 * A listener's behaviour is an oracle: `outcome(i)` is what the listener at
 * position `i` of the snapshot returns (or that it throws) when invoked.
 * Dispatch is then a pure function of the dispatcher, the name, the halt
 * flag and the oracle, and its result is the sequence of invoked listeners.
 */
module Dispatch {
  import opened Listeners
  import opened Wildcard
  import opened Registries
  import opened EventDispatcher

  /** What a listener call returns: `null`/`undefined`, a boolean, any other
      value, or an exception. */
  datatype Outcome = Absent | Bool(b: bool) | Other | Throws

  /** The listeners invoked, in order, and whether the last one threw. */
  datatype Run = Run(invoked: seq<Listener>, raised: bool)

  /** What `fire` did: dispatched now, or handed the dispatch to the timer. */
  datatype FireResult = Dispatched(run: Run) | Deferred

  /** A missing result counts as `true`. */
  function Normalize(o: Outcome): (n: Outcome)
    ensures o == Absent ==> n == Bool(true)
    ensures o != Absent ==> n == o
  {
    if o == Absent then Bool(true) else o
  }

  /** The loop halts after this call: the listener returned exactly `false`
      while halting is on. `true`, a missing result and any non-boolean
      value never halt. */
  predicate Halts(o: Outcome, halt: bool)
    ensures Halts(o, halt) <==> halt && o == Bool(false)
  {
    halt && Normalize(o) == Bool(false)
  }

  /** The dispatch ends after this call, by halting or by an exception. */
  predicate Stops(o: Outcome, halt: bool)
  {
    o.Throws? || Halts(o, halt)
  }

  /**
   * The listeners invoked when the loop reaches position `i` of `ls`: each in
   * turn, stopping right after the first one whose call stops the dispatch.
   */
  function Invoke(ls: seq<Listener>, i: nat, halt: bool, outcome: nat -> Outcome): (r: Run)
    requires i <= |ls|
    ensures r.invoked <= ls[i..]
    ensures |r.invoked| < |ls| - i ==> |r.invoked| > 0 && Stops(outcome(i + |r.invoked| - 1), halt)
    decreases |ls| - i
  {
    if i == |ls| then Run([], false)
    else if outcome(i).Throws? then Run([ls[i]], true)
    else if Halts(outcome(i), halt) then Run([ls[i]], false)
    else
      var rest := Invoke(ls, i + 1, halt, outcome);
      Run([ls[i]] + rest.invoked, rest.raised)
  }

  /**
   * What a run from position `i` is, independently of how `Invoke` computes
   * it: a prefix of the remaining listeners in which no call but the last
   * stops the dispatch, which ends early only after a stopping call, and
   * which raised exactly when its last call threw.
   */
  ghost predicate IsRunFrom(ls: seq<Listener>, i: nat, halt: bool, outcome: nat -> Outcome, r: Run)
    requires i <= |ls|
  {
    && r.invoked <= ls[i..]
    && (forall k :: i <= k < i + |r.invoked| - 1 ==> !Stops(outcome(k), halt))
    && (i + |r.invoked| < |ls| ==> |r.invoked| > 0 && Stops(outcome(i + |r.invoked| - 1), halt))
    && (r.raised <==> |r.invoked| > 0 && outcome(i + |r.invoked| - 1).Throws?)
  }

  /** `Invoke` computes a run. */
  lemma {:induction false} InvokeIsRun(ls: seq<Listener>, i: nat, halt: bool, outcome: nat -> Outcome)
    requires i <= |ls|
    ensures IsRunFrom(ls, i, halt, outcome, Invoke(ls, i, halt, outcome))
    decreases |ls| - i
  {
    if i < |ls| && !Stops(outcome(i), halt) {
      InvokeIsRun(ls, i + 1, halt, outcome);
      assert ls[i..] == [ls[i]] + ls[i + 1..];
    }
  }

  /** There is only one run: the listeners invoked are determined by the
      listeners and their outcomes. */
  lemma RunIsUnique(ls: seq<Listener>, halt: bool, outcome: nat -> Outcome, r1: Run, r2: Run)
    requires IsRunFrom(ls, 0, halt, outcome, r1) && IsRunFrom(ls, 0, halt, outcome, r2)
    ensures r1 == r2
  {
    assert r1.invoked == ls[..|r1.invoked|] && r2.invoked == ls[..|r2.invoked|];
  }

  /** `Invoke` is the run. */
  lemma InvokeIsTheRun(ls: seq<Listener>, halt: bool, outcome: nat -> Outcome, r: Run)
    requires IsRunFrom(ls, 0, halt, outcome, r)
    ensures r == Invoke(ls, 0, halt, outcome)
  {
    InvokeIsRun(ls, 0, halt, outcome);
    RunIsUnique(ls, halt, outcome, r, Invoke(ls, 0, halt, outcome));
  }

  /** `_dispatchEvent(event, payload, halt)`, as a function of the dispatcher
      and the listeners' outcomes. */
  function DispatchEvent(d: Dispatcher, event: string, halt: bool, outcome: nat -> Outcome): (r: Run)
    requires SupportedPatterns(d.wildcardListeners)
    ensures IsRunFrom(GetListeners(d, event), 0, halt, outcome, r)
    ensures r.invoked <= GetListeners(d, event)
  {
    var ls := GetListeners(d, event);
    InvokeIsRun(ls, 0, halt, outcome);
    assert ls[0..] == ls;
    Invoke(ls, 0, halt, outcome)
  }

  /**
   * The loop of `_dispatchEvent`: take the snapshot `getListeners(event)`,
   * call each listener in order, read a missing result as `true`, and break
   * after a `false` when halting. An exception leaves the loop at once.
   */
  method DispatchLoop(d: Dispatcher, event: string, halt: bool, outcome: nat -> Outcome)
    returns (invoked: seq<Listener>, raised: bool)
    requires SupportedPatterns(d.wildcardListeners)
    ensures Run(invoked, raised) == DispatchEvent(d, event, halt, outcome)
  {
    var listeners := GetListeners(d, event);
    invoked, raised := RunListeners(listeners, halt, outcome);
  }

  /** The `for` loop of `_dispatchEvent` over the snapshot of listeners. */
  method RunListeners(listeners: seq<Listener>, halt: bool, outcome: nat -> Outcome)
    returns (invoked: seq<Listener>, raised: bool)
    ensures invoked <= listeners
    ensures forall k :: 0 <= k < |invoked| - 1 ==> !Stops(outcome(k), halt)
    ensures |invoked| < |listeners| ==> |invoked| > 0 && Stops(outcome(|invoked| - 1), halt)
    ensures raised <==> |invoked| > 0 && outcome(|invoked| - 1).Throws?
    ensures Run(invoked, raised) == Invoke(listeners, 0, halt, outcome)
  {
    var len := |listeners|;
    invoked := [];
    raised := false;
    var i := 0;
    while i < len
      invariant 0 <= i <= len
      invariant invoked == listeners[..i]
      invariant forall k :: 0 <= k < i ==> !Stops(outcome(k), halt)
      invariant !raised
    {
      var result := outcome(i);
      invoked := invoked + [listeners[i]];
      if result.Throws? {
        raised := true;
        break;
      }
      if Halts(result, halt) {
        break;
      }
      i := i + 1;
    }
    assert listeners[0..] == listeners;
    InvokeIsTheRun(listeners, halt, outcome, Run(invoked, raised));
  }

  /**
   * `fire(event, payload = {}, inBackground = false, halt = true)`. In the
   * background the dispatch is handed to the timer and nothing runs now.
   */
  function Fire(d: Dispatcher, event: string, outcome: nat -> Outcome,
                inBackground: bool := false, halt: bool := true): (r: FireResult)
    requires SupportedPatterns(d.wildcardListeners)
    ensures inBackground <==> r == Deferred
    ensures r.Dispatched? ==> IsRunFrom(GetListeners(d, event), 0, halt, outcome, r.run)
  {
    if !inBackground then Dispatched(DispatchEvent(d, event, halt, outcome))
    else Deferred
  }

  // ---------------------------------------------------------------------
  // The halt rule
  // ---------------------------------------------------------------------

  /** Without halting, and with no listener throwing, every listener runs. */
  lemma NoHaltRunsAll(ls: seq<Listener>, outcome: nat -> Outcome)
    requires forall k :: 0 <= k < |ls| ==> !outcome(k).Throws?
    ensures Invoke(ls, 0, false, outcome) == Run(ls, false)
  {
    InvokeIsRun(ls, 0, false, outcome);
    assert ls[0..] == ls;
  }

  /** With halting, the run ends right after the first listener that returns
      `false`: that listener ran and no later one did. */
  lemma HaltStopsAtFirstFalse(ls: seq<Listener>, outcome: nat -> Outcome, j: nat)
    requires j < |ls| && outcome(j) == Bool(false)
    requires forall k :: 0 <= k < j ==> !Stops(outcome(k), true)
    ensures Invoke(ls, 0, true, outcome) == Run(ls[..j + 1], false)
  {
    InvokeIsRun(ls, 0, true, outcome);
    assert ls[0..] == ls;
    assert Stops(outcome(j), true);
  }

  /** `fire` with its defaults dispatches now and halts on `false`. */
  lemma FireDefaults(d: Dispatcher, event: string, outcome: nat -> Outcome)
    requires SupportedPatterns(d.wildcardListeners)
    ensures Fire(d, event, outcome) == Dispatched(DispatchEvent(d, event, true, outcome))
  {
  }
}

=== FILE: dispatcher.dfy ===
/**
 * The dispatcher's registration and lookup: `listen`, `forget`,
 * `hasListeners` and `getListeners`, over the two registries.
 */
module EventDispatcher {
  import opened Wrappers
  import opened Listeners
  import opened Wildcard
  import opened Registries

  /** The dispatcher's state: exact event names and wildcard patterns, each
      mapped to its listeners. The IoC container and the timer are not state
      of the model; what they answer is passed to the operations. */
  datatype Dispatcher = Dispatcher(listeners: Registry, wildcardListeners: Registry)

  /** The first argument of `listen`: one event name or an array of them. */
  datatype Events = Event(name: string) | EventList(names: seq<string>)

  /** What `listen` leaves behind, and the error it threw, if any. Keys set
      before the error stay set: JavaScript does not roll them back. */
  datatype ListenOutcome = ListenOutcome(dispatcher: Dispatcher, error: Option<Error>)

  /** A new dispatcher: both registries empty. */
  function New(): (d: Dispatcher)
    ensures Valid(d)
    ensures Keys(d.listeners) == [] && Keys(d.wildcardListeners) == []
    ensures forall k :: !HasListeners(d, k)
  {
    Dispatcher([], [])
  }

  /** `events` as the array `listen` iterates over. */
  function EventNames(events: Events): (names: seq<string>)
  {
    match events
    case Event(name) => [name]
    case EventList(names) => names
  }

  /** What the dispatcher keeps true: well-formed registries, every wildcard
      key holds a `*` and no exact key does. */
  predicate Valid(d: Dispatcher)
  {
    && WellFormed(d.listeners)
    && WellFormed(d.wildcardListeners)
    && (forall i :: 0 <= i < |d.wildcardListeners| ==> ContainsWildcard(d.wildcardListeners[i].key))
    && (forall i :: 0 <= i < |d.listeners| ==> !ContainsWildcard(d.listeners[i].key))
  }

  /** The registry an event name is routed to. */
  function RegistryFor(d: Dispatcher, event: string): (r: Registry)
  {
    if ContainsWildcard(event) then d.wildcardListeners else d.listeners
  }

  /** The listener is stored under the event name, in the registry the name routes to. */
  predicate Registered(d: Dispatcher, event: string, l: Listener)
  {
    l in ListenersOf(RegistryFor(d, event), event)
  }

  /** Two dispatchers agree on every key of both registries. */
  predicate SameLookups(d: Dispatcher, d': Dispatcher, key: string)
  {
    Get(d'.listeners, key) == Get(d.listeners, key)
    && Get(d'.wildcardListeners, key) == Get(d.wildcardListeners, key)
  }

  // ---------------------------------------------------------------------
  // Registration
  // ---------------------------------------------------------------------

  /** `_setupWildcardListener`: resolve the listener, then add it under the
      pattern in the wildcard registry. */
  function SetupWildcardListener(d: Dispatcher, event: string, ref: ListenerRef, resolved: Option<Value>)
    : (r: Result<Dispatcher, Error>)
    ensures r.Err? <==> MakeListener(ref, resolved).Err?
    ensures r.Err? ==> r.error == MakeListener(ref, resolved).error
    ensures r.Ok? ==> r.value.listeners == d.listeners
    ensures r.Ok? ==> var l := MakeListener(ref, resolved).value;
      ListenersOf(r.value.wildcardListeners, event) ==
        if l in ListenersOf(d.wildcardListeners, event) then ListenersOf(d.wildcardListeners, event)
        else ListenersOf(d.wildcardListeners, event) + [l]
    ensures r.Ok? ==> forall k :: k != event ==> Get(r.value.wildcardListeners, k) == Get(d.wildcardListeners, k)
  {
    match MakeListener(ref, resolved)
    case Err(e) => Err(e)
    case Ok(l) => Ok(d.(wildcardListeners := AddListener(d.wildcardListeners, event, l)))
  }

  /** `_setupRegularListener`: resolve the listener, then add it under the
      event name in the exact registry. */
  function SetupRegularListener(d: Dispatcher, event: string, ref: ListenerRef, resolved: Option<Value>)
    : (r: Result<Dispatcher, Error>)
    ensures r.Err? <==> MakeListener(ref, resolved).Err?
    ensures r.Err? ==> r.error == MakeListener(ref, resolved).error
    ensures r.Ok? ==> r.value.wildcardListeners == d.wildcardListeners
    ensures r.Ok? ==> var l := MakeListener(ref, resolved).value;
      ListenersOf(r.value.listeners, event) ==
        if l in ListenersOf(d.listeners, event) then ListenersOf(d.listeners, event)
        else ListenersOf(d.listeners, event) + [l]
    ensures r.Ok? ==> forall k :: k != event ==> Get(r.value.listeners, k) == Get(d.listeners, k)
  {
    match MakeListener(ref, resolved)
    case Err(e) => Err(e)
    case Ok(l) => Ok(d.(listeners := AddListener(d.listeners, event, l)))
  }

  /** The body of `listen`'s loop for one event name: route it by whether it
      holds a `*`. */
  function Setup(d: Dispatcher, event: string, ref: ListenerRef, resolved: Option<Value>)
    : (r: Result<Dispatcher, Error>)
    ensures r.Err? <==> MakeListener(ref, resolved).Err?
    ensures r.Ok? ==> var l := MakeListener(ref, resolved).value;
      ListenersOf(RegistryFor(r.value, event), event) ==
        if l in ListenersOf(RegistryFor(d, event), event) then ListenersOf(RegistryFor(d, event), event)
        else ListenersOf(RegistryFor(d, event), event) + [l]
    ensures r.Ok? ==> forall k :: k != event ==> Get(RegistryFor(r.value, event), k) == Get(RegistryFor(d, event), k)
    ensures r.Ok? && ContainsWildcard(event) ==> r.value.listeners == d.listeners
    ensures r.Ok? && !ContainsWildcard(event) ==> r.value.wildcardListeners == d.wildcardListeners
  {
    if ContainsWildcard(event) then SetupWildcardListener(d, event, ref, resolved)
    else SetupRegularListener(d, event, ref, resolved)
  }

  /** A setup step changes the lookups of its own name only, and of the
      registry the name routes to only. */
  lemma SetupTouchesOneKey(d: Dispatcher, event: string, ref: ListenerRef, resolved: Option<Value>)
    requires Setup(d, event, ref, resolved).Ok?
    ensures forall k :: k != event ==> SameLookups(d, Setup(d, event, ref, resolved).value, k)
    ensures forall k :: !ContainsWildcard(k) ==>
      Get(Setup(d, event, ref, resolved).value.wildcardListeners, k) == Get(d.wildcardListeners, k)
    ensures forall k :: ContainsWildcard(k) ==>
      Get(Setup(d, event, ref, resolved).value.listeners, k) == Get(d.listeners, k)
  {
  }

  /** Resolution of `ref` succeeds for every name from position `i` on. */
  predicate AllResolve(n: nat, i: nat, ref: ListenerRef, make: nat -> Option<Value>)
  {
    forall j :: i <= j < n ==> MakeListener(ref, make(j)).Ok?
  }

  /** `l` is the listener resolved at some position from `i` on that holds
      the name `k`. */
  predicate ResolvedAt(names: seq<string>, i: nat, ref: ListenerRef, make: nat -> Option<Value>,
                       k: string, l: Listener)
  {
    exists j :: i <= j < |names| && names[j] == k && MakeListener(ref, make(j)).Ok? && l == MakeListener(ref, make(j)).value
  }

  /** Resolution succeeds from `i` on when it does at `i` and from `i + 1` on. */
  lemma AllResolveStep(n: nat, i: nat, ref: ListenerRef, make: nat -> Option<Value>)
    requires i < n
    ensures AllResolve(n, i, ref, make) <==> MakeListener(ref, make(i)).Ok? && AllResolve(n, i + 1, ref, make)
  {
  }

  /**
   * `listen(events, listener)` from position `i` of the names on. For the
   * name at position `j`, `make(j)` is what the IoC container answers when
   * `makeListener` resolves a string `listener` (it is not consulted
   * otherwise). The first failing resolution stops the loop with its error.
   */
  function ListenFrom(d: Dispatcher, names: seq<string>, i: nat, ref: ListenerRef,
                      make: nat -> Option<Value>): (o: ListenOutcome)
    requires i <= |names|
    ensures o.error.None? <==> AllResolve(|names|, i, ref, make)
    decreases |names| - i
  {
    if i == |names| then ListenOutcome(d, None)
    else
      AllResolveStep(|names|, i, ref, make);
      match Setup(d, names[i], ref, make(i))
      case Err(e) => ListenOutcome(d, Some(e))
      case Ok(d') => ListenFrom(d', names, i + 1, ref, make)
  }

  /** `listen` changes a name only in the registry the name routes to. */
  lemma {:induction false} ListenRoutes(d: Dispatcher, names: seq<string>, i: nat, ref: ListenerRef,
                                       make: nat -> Option<Value>)
    requires i <= |names|
    ensures var o := ListenFrom(d, names, i, ref, make);
      && (forall k :: !ContainsWildcard(k) ==> Get(o.dispatcher.wildcardListeners, k) == Get(d.wildcardListeners, k))
      && (forall k :: ContainsWildcard(k) ==> Get(o.dispatcher.listeners, k) == Get(d.listeners, k))
    decreases |names| - i
  {
    if i < |names| && Setup(d, names[i], ref, make(i)).Ok? {
      var d' := Setup(d, names[i], ref, make(i)).value;
      SetupTouchesOneKey(d, names[i], ref, make(i));
      ListenRoutes(d', names, i + 1, ref, make);
      assert ListenFrom(d, names, i, ref, make) == ListenFrom(d', names, i + 1, ref, make);
    }
  }

  /** A setup step leaves the lookups of another name alone. */
  lemma SetupKeepsOtherName(d: Dispatcher, event: string, ref: ListenerRef, resolved: Option<Value>, k: string)
    requires Setup(d, event, ref, resolved).Ok? && k != event
    ensures SameLookups(d, Setup(d, event, ref, resolved).value, k)
  {
  }

  /** One step of `listen`'s loop: a name whose listener resolves, then the rest. */
  lemma ListenStep(d: Dispatcher, names: seq<string>, i: nat, ref: ListenerRef, make: nat -> Option<Value>)
    requires i < |names| && Setup(d, names[i], ref, make(i)).Ok?
    ensures ListenFrom(d, names, i, ref, make) == ListenFrom(Setup(d, names[i], ref, make(i)).value, names, i + 1, ref, make)
  {
  }

  /** A name missing from `names[i..j]` is not `names[i]` and is missing from `names[i + 1..j]`. */
  lemma NotInSlice(names: seq<string>, i: nat, j: nat, k: string)
    requires i < j <= |names| && k !in names[i..j]
    ensures k != names[i] && k !in names[i + 1..j]
  {
    assert names[i..j] == [names[i]] + names[i + 1..j];
  }

  /** A name missing from `names[i..]` is not `names[i]` and is missing from the rest. */
  lemma NotInSuffix(names: seq<string>, i: nat, k: string)
    requires i < |names| && k !in names[i..]
    ensures k != names[i] && k !in names[i + 1..]
  {
    assert names[i..] == [names[i]] + names[i + 1..];
  }

  /** `listen` leaves the lookups of a name it is not given alone. */
  lemma {:induction false} ListenKeepsOtherName(d: Dispatcher, names: seq<string>, i: nat, ref: ListenerRef,
                                               make: nat -> Option<Value>, k: string)
    requires i <= |names| && k !in names[i..]
    ensures SameLookups(d, ListenFrom(d, names, i, ref, make).dispatcher, k)
    decreases |names| - i
  {
    if i < |names| && Setup(d, names[i], ref, make(i)).Ok? {
      var d' := Setup(d, names[i], ref, make(i)).value;
      NotInSuffix(names, i, k);
      ListenStep(d, names, i, ref, make);
      SetupKeepsOtherName(d, names[i], ref, make(i), k);
      ListenKeepsOtherName(d', names, i + 1, ref, make, k);
    }
  }

  /** `listen` leaves the lookups of every name it is not given alone. */
  lemma ListenTouchesOnlyNames(d: Dispatcher, names: seq<string>, i: nat, ref: ListenerRef,
                               make: nat -> Option<Value>)
    requires i <= |names|
    ensures forall k :: k !in names[i..] ==> SameLookups(d, ListenFrom(d, names, i, ref, make).dispatcher, k)
  {
    forall k | k !in names[i..]
      ensures SameLookups(d, ListenFrom(d, names, i, ref, make).dispatcher, k)
    {
      ListenKeepsOtherName(d, names, i, ref, make, k);
    }
  }

  /** When `listen` throws, some name's listener failed to resolve and every
      earlier one resolved. */
  lemma {:induction false} FirstFailure(d: Dispatcher, names: seq<string>, i: nat, ref: ListenerRef,
                                        make: nat -> Option<Value>) returns (j: nat)
    requires i <= |names| && ListenFrom(d, names, i, ref, make).error.Some?
    ensures i <= j < |names| && AllResolve(j, i, ref, make)
    ensures MakeListener(ref, make(j)) == Err(ListenFrom(d, names, i, ref, make).error.value)
    decreases |names| - i
  {
    match Setup(d, names[i], ref, make(i))
    case Err(e) =>
      j := i;
      assert AllResolve(i, i, ref, make);
    case Ok(d') =>
      j := FirstFailure(d', names, i + 1, ref, make);
      assert AllResolve(j, i, ref, make);
  }

  /**
   * When every name before position `j` resolves and the one at `j` does
   * not, `listen` throws that name's error, and a name outside `names[i..j]`
   * keeps its lookups: `makeListener` throws before the failing name's set
   * is created, and the loop ends there.
   */
  lemma {:induction false} ListenFailsAt(d: Dispatcher, names: seq<string>, i: nat, ref: ListenerRef,
                                         make: nat -> Option<Value>, j: nat, k: string)
    requires i <= j < |names| && AllResolve(j, i, ref, make) && MakeListener(ref, make(j)).Err?
    requires k !in names[i..j]
    ensures ListenFrom(d, names, i, ref, make).error == Some(MakeListener(ref, make(j)).error)
    ensures SameLookups(d, ListenFrom(d, names, i, ref, make).dispatcher, k)
    decreases j - i
  {
    if i < j {
      assert MakeListener(ref, make(i)).Ok?;
      var d' := Setup(d, names[i], ref, make(i)).value;
      NotInSlice(names, i, j, k);
      ListenStep(d, names, i, ref, make);
      SetupKeepsOtherName(d, names[i], ref, make(i), k);
      ListenFailsAt(d', names, i + 1, ref, make, j, k);
    }
  }

  /** The error `listen` reports is that of the first name whose listener
      does not resolve; every earlier one resolved, and the failing name and
      every name after it are left as they were. */
  lemma ListenFailsAtFirst(d: Dispatcher, names: seq<string>, i: nat, ref: ListenerRef,
                           make: nat -> Option<Value>)
    requires i <= |names|
    ensures var o := ListenFrom(d, names, i, ref, make);
      o.error.Some? ==>
        exists j :: i <= j < |names| && AllResolve(j, i, ref, make) && MakeListener(ref, make(j)) == Err(o.error.value)
          && (forall k :: k !in names[i..j] ==> SameLookups(d, o.dispatcher, k))
  {
    var o := ListenFrom(d, names, i, ref, make);
    if o.error.Some? {
      var j := FirstFailure(d, names, i, ref, make);
      forall k | k !in names[i..j] ensures SameLookups(d, o.dispatcher, k) {
        ListenFailsAt(d, names, i, ref, make, j, k);
      }
    }
  }

  /** `listen(events, listener)`. */
  function Listen(d: Dispatcher, events: Events, ref: ListenerRef, make: nat -> Option<Value>)
    : (o: ListenOutcome)
    ensures o.error.None? <==> forall j :: 0 <= j < |EventNames(events)| ==> MakeListener(ref, make(j)).Ok?
    ensures Valid(d) ==> Valid(o.dispatcher)
    ensures forall k :: k !in EventNames(events) ==> SameLookups(d, o.dispatcher, k)
    ensures forall j :: 0 <= j < |EventNames(events)| && AllResolve(j + 1, 0, ref, make) ==>
      Registered(o.dispatcher, EventNames(events)[j], MakeListener(ref, make(j)).value)
    ensures forall k, l :: Registered(o.dispatcher, k, l) ==>
      Registered(d, k, l) || ResolvedAt(EventNames(events), 0, ref, make, k, l)
  {
    var names := EventNames(events);
    forall j | 0 <= j < |names| && AllResolve(j + 1, 0, ref, make)
      ensures Registered(ListenFrom(d, names, 0, ref, make).dispatcher, names[j], MakeListener(ref, make(j)).value)
    {
      ListenRegisters(d, names, 0, ref, make, j);
    }
    ListenKeepsValid(d, names, 0, ref, make);
    ListenTouchesOnlyNames(d, names, 0, ref, make);
    ListenOnlyAddsResolved(d, names, 0, ref, make);
    assert names[0..] == names;
    ListenFrom(d, names, 0, ref, make)
  }

  // ---------------------------------------------------------------------
  // Removal and lookup
  // ---------------------------------------------------------------------

  /** `forget(event)`: delete the key from the registry the name routes to. */
  function Forget(d: Dispatcher, event: string): (d': Dispatcher)
    ensures Get(RegistryFor(d', event), event).None?
    ensures forall k :: k != event ==> SameLookups(d, d', k)
    ensures ContainsWildcard(event) ==>
      d'.listeners == d.listeners && Keys(d'.wildcardListeners) == Without(Keys(d.wildcardListeners), event)
    ensures !ContainsWildcard(event) ==>
      d'.wildcardListeners == d.wildcardListeners && Keys(d'.listeners) == Without(Keys(d.listeners), event)
  {
    if ContainsWildcard(event) then d.(wildcardListeners := Delete(d.wildcardListeners, event))
    else d.(listeners := Delete(d.listeners, event))
  }

  /** `hasListeners(event)`: a non-empty set is stored under the literal key,
      in either registry. No pattern is matched against the name. */
  function HasListeners(d: Dispatcher, event: string): (b: bool)
    ensures Valid(d) ==> (b <==> event in Keys(RegistryFor(d, event)))
  {
    ValidLookups(d, event);
    (Has(d.listeners, event) && |Get(d.listeners, event).value| > 0)
    || (Has(d.wildcardListeners, event) && |Get(d.wildcardListeners, event).value| > 0)
  }

  /** In a valid dispatcher a key is found only in the registry it routes to,
      and what is found there is a non-empty set. */
  lemma ValidLookups(d: Dispatcher, event: string)
    ensures Valid(d) && Has(d.listeners, event) ==>
      !ContainsWildcard(event) && |Get(d.listeners, event).value| > 0
    ensures Valid(d) && Has(d.wildcardListeners, event) ==>
      ContainsWildcard(event) && |Get(d.wildcardListeners, event).value| > 0
  {
    if Valid(d) && Has(d.listeners, event) {
      WellFormedGet(d.listeners, event);
      GetFindsEntry(d.listeners, event);
    }
    if Valid(d) && Has(d.wildcardListeners, event) {
      WellFormedGet(d.wildcardListeners, event);
      GetFindsEntry(d.wildcardListeners, event);
    }
  }

  /** Every stored pattern is in the modelled regular-expression fragment. */
  predicate SupportedPatterns(r: Registry)
  {
    forall i :: 0 <= i < |r| ==> Supported(r[i].key)
  }

  /** A pattern entry of the registry whose key matches the event name. */
  predicate MatchingEntry(r: Registry, event: string, i: int)
    requires SupportedPatterns(r)
  {
    0 <= i < |r| && MatchesWildcard(event, r[i].key)
  }

  /** The listener is stored under some pattern that matches the event name. */
  predicate FromMatchingPattern(r: Registry, event: string, l: Listener)
    requires SupportedPatterns(r)
  {
    exists i :: 0 <= i < |r| && MatchingEntry(r, event, i) && l in r[i].listeners
  }

  /**
   * `_getWildcardListeners(event)`: walk the wildcard registry in insertion
   * order and concatenate the sets of the patterns that match the name.
   */
  function WildcardListenersFor(r: Registry, event: string): (ls: seq<Listener>)
    requires SupportedPatterns(r)
    ensures forall l :: l in ls <==> FromMatchingPattern(r, event, l)
  {
    if |r| == 0 then []
    else
      var rest := WildcardListenersFor(r[1..], event);
      assert forall i :: 0 < i < |r| ==> (MatchingEntry(r, event, i) <==> MatchingEntry(r[1..], event, i - 1));
      (if MatchesWildcard(event, r[0].key) then r[0].listeners else []) + rest
  }

  /** `getListeners(event)`: the listeners of every matching pattern, then
      those stored under the exact name. */
  function GetListeners(d: Dispatcher, event: string): (ls: seq<Listener>)
    requires SupportedPatterns(d.wildcardListeners)
    ensures |ls| >= |ListenersOf(d.listeners, event)|
    ensures ls[|ls| - |ListenersOf(d.listeners, event)|..] == ListenersOf(d.listeners, event)
    ensures ls[..|ls| - |ListenersOf(d.listeners, event)|] == WildcardListenersFor(d.wildcardListeners, event)
    ensures forall l :: l in ls[..|ls| - |ListenersOf(d.listeners, event)|] <==>
      FromMatchingPattern(d.wildcardListeners, event, l)
  {
    var wildcard := WildcardListenersFor(d.wildcardListeners, event);
    var regular := if Has(d.listeners, event) then Get(d.listeners, event).value else [];
    assert (wildcard + regular)[..|wildcard|] == wildcard;
    assert (wildcard + regular)[|wildcard|..] == regular;
    wildcard + regular
  }

  // ---------------------------------------------------------------------
  // Properties of registration
  // ---------------------------------------------------------------------

  /** Adding a listener under a key routed to that registry keeps the
      dispatcher valid. */
  lemma AddKeepsValid(d: Dispatcher, event: string, l: Listener)
    requires Valid(d)
    ensures ContainsWildcard(event) ==>
      Valid(d.(wildcardListeners := AddListener(d.wildcardListeners, event, l)))
    ensures !ContainsWildcard(event) ==>
      Valid(d.(listeners := AddListener(d.listeners, event, l)))
  {
    var r := RegistryFor(d, event);
    AddKeepsWellFormed(r, event, l);
    AddKeepsRouting(r, event, l, ContainsWildcard(event));
  }

  /** Adding under a key routed like every key of the registry keeps every
      key routed alike. */
  lemma AddKeepsRouting(r: Registry, event: string, l: Listener, wildcard: bool)
    requires forall i :: 0 <= i < |r| ==> ContainsWildcard(r[i].key) == wildcard
    requires ContainsWildcard(event) == wildcard
    ensures forall i :: 0 <= i < |AddListener(r, event, l)| ==>
      ContainsWildcard(AddListener(r, event, l)[i].key) == wildcard
  {
    var r' := AddListener(r, event, l);
    var keys := Keys(r');
    assert keys == Keys(r) || keys == Keys(r) + [event];
    forall i | 0 <= i < |r'|
      ensures ContainsWildcard(r'[i].key) == wildcard
    {
      assert r'[i].key == keys[i];
      if i < |r| {
        assert keys[i] == Keys(r)[i] == r[i].key;
      } else {
        assert keys[i] == event;
      }
    }
  }

  /** One step of `listen` keeps the dispatcher valid and never removes or
      reorders a listener already stored under any key. */
  lemma SetupKeepsValid(d: Dispatcher, event: string, ref: ListenerRef, resolved: Option<Value>)
    requires Setup(d, event, ref, resolved).Ok?
    ensures Valid(d) ==> Valid(Setup(d, event, ref, resolved).value)
    ensures forall k :: ListenersOf(d.listeners, k) <= ListenersOf(Setup(d, event, ref, resolved).value.listeners, k)
    ensures forall k ::
      ListenersOf(d.wildcardListeners, k) <= ListenersOf(Setup(d, event, ref, resolved).value.wildcardListeners, k)
  {
    if Valid(d) {
      AddKeepsValid(d, event, MakeListener(ref, resolved).value);
    }
    SetupGrows(d, event, ref, resolved);
  }

  /** A setup step only appends to the set under its own name. */
  lemma SetupGrows(d: Dispatcher, event: string, ref: ListenerRef, resolved: Option<Value>)
    requires Setup(d, event, ref, resolved).Ok?
    ensures forall k :: ListenersOf(d.listeners, k) <= ListenersOf(Setup(d, event, ref, resolved).value.listeners, k)
    ensures forall k ::
      ListenersOf(d.wildcardListeners, k) <= ListenersOf(Setup(d, event, ref, resolved).value.wildcardListeners, k)
  {
    var d' := Setup(d, event, ref, resolved).value;
    SetupTouchesOneKey(d, event, ref, resolved);
    forall k ensures ListenersOf(d.listeners, k) <= ListenersOf(d'.listeners, k)
      && ListenersOf(d.wildcardListeners, k) <= ListenersOf(d'.wildcardListeners, k)
    {
      if k != event {
        assert SameLookups(d, d', k);
      }
    }
  }

  /** `listen` keeps the dispatcher valid, and stored sets only grow at their end. */
  lemma {:induction false} ListenKeepsValid(d: Dispatcher, names: seq<string>, i: nat, ref: ListenerRef,
                                           make: nat -> Option<Value>)
    requires i <= |names|
    ensures Valid(d) ==> Valid(ListenFrom(d, names, i, ref, make).dispatcher)
    ensures forall k :: ListenersOf(d.listeners, k) <= ListenersOf(ListenFrom(d, names, i, ref, make).dispatcher.listeners, k)
    ensures forall k ::
      ListenersOf(d.wildcardListeners, k) <= ListenersOf(ListenFrom(d, names, i, ref, make).dispatcher.wildcardListeners, k)
    decreases |names| - i
  {
    if i < |names| && Setup(d, names[i], ref, make(i)).Ok? {
      var d' := Setup(d, names[i], ref, make(i)).value;
      SetupKeepsValid(d, names[i], ref, make(i));
      ListenKeepsValid(d', names, i + 1, ref, make);
      forall k ensures ListenersOf(d.listeners, k) <= ListenersOf(ListenFrom(d, names, i, ref, make).dispatcher.listeners, k) {
        PrefixTrans(ListenersOf(d.listeners, k), ListenersOf(d'.listeners, k),
                    ListenersOf(ListenFrom(d, names, i, ref, make).dispatcher.listeners, k));
      }
      forall k ensures ListenersOf(d.wildcardListeners, k) <= ListenersOf(ListenFrom(d, names, i, ref, make).dispatcher.wildcardListeners, k) {
        PrefixTrans(ListenersOf(d.wildcardListeners, k), ListenersOf(d'.wildcardListeners, k),
                    ListenersOf(ListenFrom(d, names, i, ref, make).dispatcher.wildcardListeners, k));
      }
    }
  }

  /** Being a prefix is transitive. */
  lemma PrefixTrans(a: seq<Listener>, b: seq<Listener>, c: seq<Listener>)
    requires a <= b && b <= c
    ensures a <= c
  {
    assert c[..|a|] == b[..|a|];
  }

  /**
   * `listen` stores, under every name it processed before any failure, the
   * listener resolved for that name, in the registry the name routes to; in
   * a valid dispatcher `hasListeners` then answers true for the name.
   */
  lemma {:induction false} ListenRegisters(d: Dispatcher, names: seq<string>, i: nat, ref: ListenerRef,
                                          make: nat -> Option<Value>, j: nat)
    requires i <= j < |names| && AllResolve(j + 1, i, ref, make)
    ensures Registered(ListenFrom(d, names, i, ref, make).dispatcher, names[j], MakeListener(ref, make(j)).value)
    ensures Valid(d) ==> HasListeners(ListenFrom(d, names, i, ref, make).dispatcher, names[j])
    decreases |names| - i
  {
    var d' := Setup(d, names[i], ref, make(i)).value;
    ListenStep(d, names, i, ref, make);
    var o := ListenFrom(d', names, i + 1, ref, make);
    var l := MakeListener(ref, make(j)).value;
    assert Registered(o.dispatcher, names[j], l) by {
      if j == i {
        ListenKeepsValid(d', names, i + 1, ref, make);
        assert l in ListenersOf(RegistryFor(d', names[i]), names[i]);
        assert ListenersOf(RegistryFor(d', names[i]), names[i]) <= ListenersOf(RegistryFor(o.dispatcher, names[i]), names[i]);
      } else {
        ListenRegisters(d', names, i + 1, ref, make, j);
      }
    }
    if Valid(d) {
      ListenKeepsValid(d, names, i, ref, make);
      RegisteredHas(o.dispatcher, names[j], l);
    }
  }

  /** A setup step adds to a name's set only the listener it resolved, and
      only under its own name. */
  lemma SetupAddsOnlyResolved(d: Dispatcher, event: string, ref: ListenerRef, resolved: Option<Value>,
                              k: string, l: Listener)
    requires Setup(d, event, ref, resolved).Ok? && Registered(Setup(d, event, ref, resolved).value, k, l)
    ensures Registered(d, k, l) || (k == event && l == MakeListener(ref, resolved).value)
  {
    if k != event {
      SetupKeepsOtherName(d, event, ref, resolved, k);
    }
  }

  /** Every listener `listen` leaves under a name was there before, or was
      resolved at a position holding that name. */
  lemma {:induction false} ListenAddsOnlyResolved(d: Dispatcher, names: seq<string>, i: nat, ref: ListenerRef,
                                                 make: nat -> Option<Value>, k: string, l: Listener)
    requires i <= |names| && Registered(ListenFrom(d, names, i, ref, make).dispatcher, k, l)
    ensures Registered(d, k, l) || ResolvedAt(names, i, ref, make, k, l)
    decreases |names| - i
  {
    if i < |names| && Setup(d, names[i], ref, make(i)).Ok? {
      var d' := Setup(d, names[i], ref, make(i)).value;
      ListenStep(d, names, i, ref, make);
      ListenAddsOnlyResolved(d', names, i + 1, ref, make, k, l);
      AddsOnlyResolvedStep(d, names, i, ref, make, k, l);
    }
  }

  /** The step of `ListenAddsOnlyResolved`: what the rest of the loop left
      under `k` was there after the step at `i`, or resolved later. */
  lemma AddsOnlyResolvedStep(d: Dispatcher, names: seq<string>, i: nat, ref: ListenerRef,
                             make: nat -> Option<Value>, k: string, l: Listener)
    requires i < |names| && Setup(d, names[i], ref, make(i)).Ok?
    requires Registered(Setup(d, names[i], ref, make(i)).value, k, l) || ResolvedAt(names, i + 1, ref, make, k, l)
    ensures Registered(d, k, l) || ResolvedAt(names, i, ref, make, k, l)
  {
    if Registered(Setup(d, names[i], ref, make(i)).value, k, l) {
      SetupAddsOnlyResolved(d, names[i], ref, make(i), k, l);
      if !Registered(d, k, l) {
        assert names[i] == k && MakeListener(ref, make(i)).Ok? && l == MakeListener(ref, make(i)).value;
      }
    } else {
      var j :| i + 1 <= j < |names| && names[j] == k && MakeListener(ref, make(j)).Ok? && l == MakeListener(ref, make(j)).value;
      assert i <= j;
    }
  }

  /** `listen` adds nothing but the listeners it resolved, each under its own name. */
  lemma ListenOnlyAddsResolved(d: Dispatcher, names: seq<string>, i: nat, ref: ListenerRef,
                               make: nat -> Option<Value>)
    requires i <= |names|
    ensures forall k, l :: Registered(ListenFrom(d, names, i, ref, make).dispatcher, k, l) ==>
      Registered(d, k, l) || ResolvedAt(names, i, ref, make, k, l)
  {
    forall k, l | Registered(ListenFrom(d, names, i, ref, make).dispatcher, k, l)
      ensures Registered(d, k, l) || ResolvedAt(names, i, ref, make, k, l)
    {
      ListenAddsOnlyResolved(d, names, i, ref, make, k, l);
    }
  }

  /** In a valid dispatcher, a registered listener makes `hasListeners` true. */
  lemma RegisteredHas(d: Dispatcher, event: string, l: Listener)
    requires Valid(d) && Registered(d, event, l)
    ensures HasListeners(d, event)
  {
    assert Has(RegistryFor(d, event), event);
  }

  /** When every name already holds the listener its resolution yields,
      `listen` changes nothing and throws nothing. */
  lemma {:induction false} ListenAgainChangesNothing(d: Dispatcher, names: seq<string>, i: nat, ref: ListenerRef,
                                                    make: nat -> Option<Value>, l: Listener)
    requires i <= |names|
    requires forall j :: i <= j < |names| ==> MakeListener(ref, make(j)) == Ok(l) && Registered(d, names[j], l)
    ensures ListenFrom(d, names, i, ref, make) == ListenOutcome(d, None)
    decreases |names| - i
  {
    if i < |names| {
      var r := RegistryFor(d, names[i]);
      assert AddListener(r, names[i], l) == r;
      ListenAgainChangesNothing(d, names, i + 1, ref, make, l);
    }
  }

  /**
   * Listening twice with a reference that resolves to the same listener for
   * every name (a function, a `Listener` instance, or a singleton IoC
   * binding) is the same as listening once.
   */
  lemma ListenIdempotent(d: Dispatcher, events: Events, ref: ListenerRef, make: nat -> Option<Value>, l: Listener)
    requires forall j :: 0 <= j < |EventNames(events)| ==> MakeListener(ref, make(j)) == Ok(l)
    ensures Listen(Listen(d, events, ref, make).dispatcher, events, ref, make) == Listen(d, events, ref, make)
  {
    var names := EventNames(events);
    var o := Listen(d, events, ref, make);
    forall j | 0 <= j < |names| ensures Registered(o.dispatcher, names[j], l) {
      assert AllResolve(j + 1, 0, ref, make);
      ListenRegisters(d, names, 0, ref, make, j);
    }
    ListenAgainChangesNothing(o.dispatcher, names, 0, ref, make, l);
  }

  /**
   * A value that is not a listener makes `listen` throw `TypeError` at the
   * first name, before any set is created; an empty array of names throws
   * nothing and changes nothing.
   */
  lemma ListenRejectsNonListener(d: Dispatcher, events: Events, make: nat -> Option<Value>)
    ensures |EventNames(events)| > 0 ==>
      Listen(d, events, Given(NonListener), make) == ListenOutcome(d, Some(InvalidListener))
    ensures |EventNames(events)| == 0 ==>
      Listen(d, events, Given(NonListener), make) == ListenOutcome(d, None)
  {
  }

  // ---------------------------------------------------------------------
  // Properties of removal and lookup
  // ---------------------------------------------------------------------

  /** `forget` keeps the dispatcher valid, and afterwards `hasListeners`
      answers false for the name. */
  lemma ForgetClears(d: Dispatcher, event: string)
    requires Valid(d)
    ensures Valid(Forget(d, event))
    ensures !HasListeners(Forget(d, event), event)
  {
    var d' := Forget(d, event);
    DeleteKeepsWellFormed(RegistryFor(d, event), event);
    var r := RegistryFor(d, event);
    var r' := RegistryFor(d', event);
    forall i | 0 <= i < |r'| ensures ContainsWildcard(r'[i].key) == ContainsWildcard(event) {
      assert r'[i] in r;
    }
  }

  /** A name that is forgotten and registered again goes to the end of its
      registry's iteration order. */
  lemma ForgetThenListenMovesToEnd(d: Dispatcher, event: string, ref: ListenerRef, resolved: Option<Value>)
    requires MakeListener(ref, resolved).Ok?
    ensures var d' := Setup(Forget(d, event), event, ref, resolved).value;
      Keys(RegistryFor(d', event)) == Without(Keys(RegistryFor(d, event)), event) + [event]
  {
  }

  /** Patterns of two supported registries are supported in their concatenation. */
  lemma SupportedConcat(a: Registry, b: Registry)
    requires SupportedPatterns(a) && SupportedPatterns(b)
    ensures SupportedPatterns(a + b)
  {
    assert forall i :: 0 <= i < |a + b| ==> (a + b)[i] == if i < |a| then a[i] else b[i - |a|];
  }

  /** One step of the wildcard lookup: the first pattern's set, when it
      matches, and then the lookup in the rest. */
  lemma WildcardStep(r: Registry, event: string)
    requires SupportedPatterns(r) && |r| > 0
    ensures SupportedPatterns(r[1..])
    ensures WildcardListenersFor(r, event) ==
      (if MatchesWildcard(event, r[0].key) then r[0].listeners else []) + WildcardListenersFor(r[1..], event)
  {
    assert forall i :: 0 <= i < |r[1..]| ==> r[1..][i] == r[i + 1];
  }

  /** Looking up wildcard listeners distributes over the registry's order:
      patterns registered earlier contribute their listeners earlier. */
  lemma {:induction false} WildcardConcat(a: Registry, b: Registry, event: string)
    requires SupportedPatterns(a) && SupportedPatterns(b)
    ensures SupportedPatterns(a + b)
    ensures WildcardListenersFor(a + b, event) == WildcardListenersFor(a, event) + WildcardListenersFor(b, event)
  {
    SupportedConcat(a, b);
    if |a| == 0 {
      assert a + b == b;
    } else {
      var ab := a + b;
      assert ab[0] == a[0] && ab[1..] == a[1..] + b;
      WildcardStep(a, event);
      WildcardStep(ab, event);
      WildcardConcat(a[1..], b, event);
    }
  }

  /**
   * In `getListeners`, the set of the wildcard pattern at position `i`
   * appears, when the pattern matches, as one block after the listeners of
   * every earlier matching pattern and before those of every later one.
   */
  lemma WildcardBlocks(r: Registry, event: string, i: nat)
    requires SupportedPatterns(r) && i < |r|
    ensures WildcardListenersFor(r, event) ==
      WildcardListenersFor(r[..i], event)
      + (if MatchesWildcard(event, r[i].key) then r[i].listeners else [])
      + WildcardListenersFor(r[i + 1..], event)
  {
    assert r == r[..i] + ([r[i]] + r[i + 1..]);
    assert SupportedPatterns(r[..i]) by {
      assert forall j :: 0 <= j < i ==> r[..i][j] == r[j];
    }
    var rest := [r[i]] + r[i + 1..];
    assert SupportedPatterns(rest) by {
      assert forall j :: 0 <= j < |rest| ==> rest[j] == r[i + j];
    }
    WildcardConcat(r[..i], rest, event);
    assert rest[0] == r[i] && rest[1..] == r[i + 1..];
  }

  /** Looking up any stored pattern's own text finds the pattern's listeners. */
  lemma PatternFindsItself(d: Dispatcher, i: nat)
    requires SupportedPatterns(d.wildcardListeners) && i < |d.wildcardListeners|
    ensures forall l :: l in d.wildcardListeners[i].listeners ==> l in GetListeners(d, d.wildcardListeners[i].key)
  {
    var key := d.wildcardListeners[i].key;
    PatternMatchesItself(key);
    assert MatchingEntry(d.wildcardListeners, key, i);
    var ls := GetListeners(d, key);
    forall l | l in d.wildcardListeners[i].listeners ensures l in ls {
      assert FromMatchingPattern(d.wildcardListeners, key, l);
      assert l in ls[..|ls| - |ListenersOf(d.listeners, key)|];
    }
  }
}

=== FILE: listeners.dfy ===
/**
 * Listeners and their resolution (`Dispatcher.makeListener`).
 *
 * JavaScript values are modelled by reference identity only: two listeners are
 * the same listener exactly when they carry the same kind and the same id.
 */
module Listeners {
  import opened Wrappers

  /** A listener as stored in a registry: a plain callback function, or an
      instance of the `Listener` class whose `handle` method is invoked. */
  datatype Listener = Callback(id: nat) | Handler(id: nat)

  /** Any JavaScript value that is not a string: a function, a `Listener`
      instance, or something else (a number, a plain object, `null`, ...). */
  datatype Value = Function(id: nat) | ListenerInstance(id: nat) | NonListener

  /** The second argument of `listen`: a value, or a string naming an IoC binding. */
  datatype ListenerRef = Given(value: Value) | Named(name: string)

  /** Why `makeListener` threw: the value is not a listener (`TypeError`), or
      the IoC container's `make` threw while resolving the name. */
  datatype Error = InvalidListener | ResolutionFailure

  /** The value `makeListener` checks: the given value itself, or what the IoC
      container returned for the name (`None` when `ioc.make` threw). */
  function Candidate(ref: ListenerRef, resolved: Option<Value>): (candidate: Option<Value>)
  {
    match ref
    case Given(v) => Some(v)
    case Named(_) => resolved
  }

  /** The JavaScript value a stored listener is. */
  function AsValue(l: Listener): (v: Value)
    ensures v != NonListener
  {
    match l
    case Callback(id) => Function(id)
    case Handler(id) => ListenerInstance(id)
  }

  /**
   * `makeListener`: resolve a string through the IoC container (whose answer
   * for this call is `resolved`), then accept a function or a `Listener`
   * instance as is and throw for anything else.
   */
  function MakeListener(ref: ListenerRef, resolved: Option<Value>): (r: Result<Listener, Error>)
    ensures r.Ok? <==> Candidate(ref, resolved).Some? && Candidate(ref, resolved).value != NonListener
    ensures r.Ok? ==> Some(AsValue(r.value)) == Candidate(ref, resolved)
    ensures r.Err? ==> (r.error == ResolutionFailure <==> Candidate(ref, resolved).None?)
  {
    match Candidate(ref, resolved)
    case None => Err(ResolutionFailure)
    case Some(Function(id)) => Ok(Callback(id))
    case Some(ListenerInstance(id)) => Ok(Handler(id))
    case Some(NonListener) => Err(InvalidListener)
  }

  /** A listener passed to `makeListener` comes back as the same reference,
      and the IoC container is not consulted for it. */
  lemma MakeListenerKeepsGiven(l: Listener, resolved: Option<Value>)
    ensures MakeListener(Given(AsValue(l)), resolved) == Ok(l)
  {
  }
}

=== FILE: registry.dfy ===
/**
 * A listener registry: the `Map<string, Set<listener>>` the dispatcher keeps
 * twice, once for exact event names and once for wildcard patterns.
 *
 * A JavaScript `Map` iterates in insertion order; setting an existing key
 * keeps its place, a new key goes to the end, and a deleted key that is set
 * again counts as new. The registry is therefore an association list, and
 * each `Set` of listeners is a duplicate-free sequence in insertion order.
 */
module Registries {
  import opened Wrappers
  import opened Listeners

  datatype Entry = Entry(key: string, listeners: seq<Listener>)

  type Registry = seq<Entry>

  /** The keys in iteration order. */
  function Keys(r: Registry): (keys: seq<string>)
    ensures |keys| == |r|
    ensures forall i :: 0 <= i < |r| ==> keys[i] == r[i].key
  {
    if |r| == 0 then [] else [r[0].key] + Keys(r[1..])
  }

  predicate UniqueKeys(r: Registry)
  {
    forall i, j :: 0 <= i < j < |r| ==> r[i].key != r[j].key
  }

  predicate NoDuplicates(s: seq<Listener>)
  {
    forall i, j :: 0 <= i < j < |s| ==> s[i] != s[j]
  }

  /** What the dispatcher keeps true of each registry: a key at most once,
      and under it a non-empty set of distinct listeners. */
  predicate WellFormed(r: Registry)
  {
    && UniqueKeys(r)
    && forall i :: 0 <= i < |r| ==> |r[i].listeners| > 0 && NoDuplicates(r[i].listeners)
  }

  /** `map.get(key)`, with `None` for `undefined`. */
  function Get(r: Registry, key: string): (v: Option<seq<Listener>>)
    ensures v.None? <==> key !in Keys(r)
  {
    if |r| == 0 then None
    else if r[0].key == key then Some(r[0].listeners)
    else Get(r[1..], key)
  }

  /** `map.has(key)`: the key is one of the registry's keys. */
  predicate Has(r: Registry, key: string)
    ensures Has(r, key) <==> key in Keys(r)
  {
    Get(r, key).Some?
  }

  /** The listeners under a key, or none. */
  function ListenersOf(r: Registry, key: string): (ls: seq<Listener>)
  {
    Get(r, key).GetOr([])
  }

  /** In a registry with unique keys, an entry's key looks up its own set. */
  lemma {:induction false} GetEntry(r: Registry, i: nat)
    requires UniqueKeys(r) && i < |r|
    ensures Get(r, r[i].key) == Some(r[i].listeners)
  {
    if i > 0 {
      assert r == [r[0]] + r[1..];
      UniqueCons(r[0], r[1..]);
      assert r[0].key != r[i].key;
      GetEntry(r[1..], i - 1);
    }
  }

  /** The association-list update behind `Set`: replace the entry under the
      key where it stands, or append one. */
  function Assign(r: Registry, key: string, value: seq<Listener>): (r': Registry)
  {
    if |r| == 0 then [Entry(key, value)]
    else if r[0].key == key then [Entry(key, value)] + r[1..]
    else [r[0]] + Assign(r[1..], key, value)
  }

  /** Lookup in a registry with a known first entry. */
  lemma GetCons(e: Entry, rest: Registry, k: string)
    ensures Get([e] + rest, k) == if e.key == k then Some(e.listeners) else Get(rest, k)
  {
    assert ([e] + rest)[1..] == rest;
  }

  /** The keys of a registry with a known first entry. */
  lemma KeysCons(e: Entry, rest: Registry)
    ensures Keys([e] + rest) == [e.key] + Keys(rest)
  {
    assert ([e] + rest)[1..] == rest;
  }

  /** After `Assign` the key looks up the new value. */
  lemma {:induction false} AssignFinds(r: Registry, key: string, value: seq<Listener>)
    ensures Get(Assign(r, key, value), key) == Some(value)
  {
    if |r| > 0 && r[0].key != key {
      AssignFinds(r[1..], key, value);
      GetCons(r[0], Assign(r[1..], key, value), key);
    } else {
      GetCons(Entry(key, value), if |r| == 0 then [] else r[1..], key);
    }
  }

  /** `Assign` leaves the lookup of another key alone. */
  lemma {:induction false} AssignKeepsOther(r: Registry, key: string, value: seq<Listener>, k: string)
    requires k != key
    ensures Get(Assign(r, key, value), k) == Get(r, k)
  {
    if |r| == 0 {
      GetCons(Entry(key, value), [], k);
    } else {
      assert r == [r[0]] + r[1..];
      GetCons(r[0], r[1..], k);
      if r[0].key == key {
        GetCons(Entry(key, value), r[1..], k);
      } else {
        AssignKeepsOther(r[1..], key, value, k);
        GetCons(r[0], Assign(r[1..], key, value), k);
      }
    }
  }

  /** `Assign` keeps the order of keys, appending a new key. */
  lemma {:induction false} AssignKeys(r: Registry, key: string, value: seq<Listener>)
    ensures Keys(Assign(r, key, value)) == if key in Keys(r) then Keys(r) else Keys(r) + [key]
  {
    if |r| > 0 {
      assert r == [r[0]] + r[1..];
      KeysCons(r[0], r[1..]);
      if r[0].key == key {
        KeysCons(Entry(key, value), r[1..]);
        assert key in Keys(r);
      } else {
        AssignKeys(r[1..], key, value);
        KeysCons(r[0], Assign(r[1..], key, value));
        assert key in Keys(r) <==> key in Keys(r[1..]);
        assert [r[0].key] + (Keys(r[1..]) + [key]) == Keys(r) + [key];
      }
    }
  }

  /** What `Assign` does to lookups and to the order of keys. */
  lemma AssignLookups(r: Registry, key: string, value: seq<Listener>)
    ensures Get(Assign(r, key, value), key) == Some(value)
    ensures forall k :: k != key ==> Get(Assign(r, key, value), k) == Get(r, k)
    ensures Keys(Assign(r, key, value)) == if key in Keys(r) then Keys(r) else Keys(r) + [key]
  {
    AssignFinds(r, key, value);
    AssignKeys(r, key, value);
    forall k | k != key ensures Get(Assign(r, key, value), k) == Get(r, k) {
      AssignKeepsOther(r, key, value, k);
    }
  }

  /** `map.set(key, value)`: the key now maps to the value, no other key
      changes, an existing key keeps its place and a new key goes last. */
  function Set(r: Registry, key: string, value: seq<Listener>): (r': Registry)
    ensures Get(r', key) == Some(value)
    ensures forall k :: k != key ==> Get(r', k) == Get(r, k)
    ensures Keys(r') == if key in Keys(r) then Keys(r) else Keys(r) + [key]
  {
    AssignLookups(r, key, value);
    Assign(r, key, value)
  }

  /** Setting a key keeps every key unique. */
  lemma SetKeepsUnique(r: Registry, key: string, value: seq<Listener>)
    requires UniqueKeys(r)
    ensures UniqueKeys(Set(r, key, value))
  {
    var r' := Set(r, key, value);
    forall i, j | 0 <= i < j < |r'| ensures r'[i].key != r'[j].key {
      assert r'[i].key == Keys(r')[i] && r'[j].key == Keys(r')[j];
      if j < |r| {
        assert Keys(r)[i] == r[i].key && Keys(r)[j] == r[j].key;
      } else {
        assert Keys(r)[i] == r[i].key;
      }
    }
  }

  /** A registry with a first entry has unique keys exactly when the first key
      is not among the others and the others are unique. */
  lemma UniqueCons(e: Entry, r: Registry)
    ensures UniqueKeys([e] + r) <==> e.key !in Keys(r) && UniqueKeys(r)
  {
    var r' := [e] + r;
    assert forall i :: 0 <= i < |r| ==> r'[i + 1] == r[i];
    if UniqueKeys(r') {
      assert forall i :: 0 <= i < |r| ==> Keys(r)[i] != e.key by {
        forall i | 0 <= i < |r| ensures Keys(r)[i] != e.key {
          assert r'[0].key != r'[i + 1].key;
        }
      }
    }
  }

  /** `map.delete(key)`: the key is gone, no other key changes, and the
      remaining keys keep their order. A JavaScript `Map` holds a key at most
      once; this removes every entry under the key. */
  function Delete(r: Registry, key: string): (r': Registry)
    ensures Get(r', key).None?
    ensures forall k :: k != key ==> Get(r', k) == Get(r, k)
    ensures Keys(r') == Without(Keys(r), key)
    ensures forall i :: 0 <= i < |r'| ==> r'[i] in r
  {
    if |r| == 0 then []
    else
      var rest := Delete(r[1..], key);
      assert Keys(r) == [r[0].key] + Keys(r[1..]);
      if r[0].key == key then
        rest
      else
        var r' := [r[0]] + rest;
        assert r'[0] == r[0] && r'[1..] == rest;
        r'
  }

  /** Deleting a key keeps every key unique. */
  lemma {:induction false} DeleteKeepsUnique(r: Registry, key: string)
    requires UniqueKeys(r)
    ensures UniqueKeys(Delete(r, key))
  {
    if |r| > 0 {
      assert r == [r[0]] + r[1..];
      UniqueCons(r[0], r[1..]);
      DeleteKeepsUnique(r[1..], key);
      if r[0].key != key {
        var rest := Delete(r[1..], key);
        assert Delete(r, key) == [r[0]] + rest;
        UniqueCons(r[0], rest);
      }
    }
  }

  /** The keys in order, with one key filtered out. */
  function Without(keys: seq<string>, key: string): (out: seq<string>)
    ensures key !in out
    ensures forall k :: k in out <==> k in keys && k != key
  {
    if |keys| == 0 then []
    else if keys[0] == key then Without(keys[1..], key)
    else [keys[0]] + Without(keys[1..], key)
  }

  /** A key that looks something up names an entry holding exactly that. */
  lemma {:induction false} GetFindsEntry(r: Registry, key: string)
    requires Get(r, key).Some?
    ensures exists i :: 0 <= i < |r| && r[i] == Entry(key, Get(r, key).value)
  {
    if r[0].key != key {
      GetFindsEntry(r[1..], key);
      var i :| 0 <= i < |r[1..]| && r[1..][i] == Entry(key, Get(r, key).value);
      assert r[i + 1] == r[1..][i];
    } else {
      assert r[0] == Entry(key, Get(r, key).value);
    }
  }

  /** In a well-formed registry every set found is non-empty and duplicate-free. */
  lemma WellFormedGet(r: Registry, key: string)
    requires WellFormed(r) && Get(r, key).Some?
    ensures |Get(r, key).value| > 0 && NoDuplicates(Get(r, key).value)
  {
    GetFindsEntry(r, key);
  }

  /** Every entry after a set is the new entry or an entry that was there. */
  lemma SetEntries(r: Registry, key: string, value: seq<Listener>)
    ensures forall i :: 0 <= i < |Set(r, key, value)| ==>
      Set(r, key, value)[i] == Entry(key, value) || Set(r, key, value)[i] in r
  {
    AssignEntries(r, key, value);
  }

  /** Every entry `Assign` leaves is the new entry or one that was there. */
  lemma {:induction false} AssignEntries(r: Registry, key: string, value: seq<Listener>)
    ensures forall e :: e in Assign(r, key, value) ==> e == Entry(key, value) || e in r
  {
    if |r| > 0 && r[0].key != key {
      AssignEntries(r[1..], key, value);
      assert Assign(r, key, value) == [r[0]] + Assign(r[1..], key, value);
      assert forall e :: e in r[1..] ==> e in r;
    }
  }

  /** Setting a key to a non-empty, duplicate-free set keeps a registry well formed. */
  lemma SetKeepsWellFormed(r: Registry, key: string, value: seq<Listener>)
    requires WellFormed(r) && |value| > 0 && NoDuplicates(value)
    ensures WellFormed(Set(r, key, value))
  {
    SetKeepsUnique(r, key, value);
    SetEntries(r, key, value);
  }

  /** Deleting a key keeps a registry well formed. */
  lemma DeleteKeepsWellFormed(r: Registry, key: string)
    requires WellFormed(r)
    ensures WellFormed(Delete(r, key))
  {
    DeleteKeepsUnique(r, key);
  }

  /**
   * The body shared by `_setupWildcardListener` and `_setupRegularListener`
   * once the listener is resolved: create the set for the key if there is
   * none, then add the listener unless the set already holds it.
   */
  function AddListener(r: Registry, key: string, l: Listener): (r': Registry)
    ensures ListenersOf(r', key) ==
      if l in ListenersOf(r, key) then ListenersOf(r, key) else ListenersOf(r, key) + [l]
    ensures Has(r', key)
    ensures forall k :: k != key ==> Get(r', k) == Get(r, k)
    ensures Keys(r') == if key in Keys(r) then Keys(r) else Keys(r) + [key]
  {
    var created := if !Has(r, key) then Set(r, key, []) else r;
    var listenerSet := Get(created, key).value;
    if l in listenerSet then created
    else Set(created, key, listenerSet + [l])
  }

  /** Adding a listener keeps a registry well formed: the set it touches is
      non-empty and holds no listener twice. */
  lemma AddKeepsWellFormed(r: Registry, key: string, l: Listener)
    requires WellFormed(r)
    ensures WellFormed(AddListener(r, key, l))
  {
    var old_ := ListenersOf(r, key);
    if l !in old_ {
      var value := old_ + [l];
      assert AddListener(r, key, l) == Set(r, key, value) by {
        if !Has(r, key) {
          var created := Set(r, key, []);
          assert Get(created, key).value == [];
          assert old_ == [] && value == [l];
          SetTwice(r, key, [], [l]);
        }
      }
      assert |value| > 0 && NoDuplicates(value) by {
        if Has(r, key) {
          WellFormedGet(r, key);
        }
      }
      SetKeepsWellFormed(r, key, value);
    }
  }

  /** A second set of the same key overrides the first. */
  lemma {:induction false} SetTwice(r: Registry, key: string, first: seq<Listener>, second: seq<Listener>)
    ensures Set(Set(r, key, first), key, second) == Set(r, key, second)
  {
    if |r| > 0 && r[0].key != key {
      SetTwice(r[1..], key, first, second);
      var once := Set(r, key, first);
      assert once[0] == r[0] && once[1..] == Assign(r[1..], key, first);
    } else if |r| > 0 {
      var once := Set(r, key, first);
      assert once[0].key == key && once[1..] == r[1..];
    }
  }

  /** Adding the same listener twice changes nothing the second time. */
  lemma AddIdempotent(r: Registry, key: string, l: Listener)
    ensures AddListener(AddListener(r, key, l), key, l) == AddListener(r, key, l)
  {
    var r' := AddListener(r, key, l);
    assert l in ListenersOf(r', key);
  }

  /** A duplicate-free sequence holds each of its listeners exactly once. */
  lemma {:induction false} NoDuplicatesCount(s: seq<Listener>, l: Listener)
    requires NoDuplicates(s) && l in s
    ensures multiset(s)[l] == 1
  {
    assert s == [s[0]] + s[1..];
    if s[0] == l {
      assert l !in s[1..] by {
        forall i | 0 <= i < |s[1..]| ensures s[1..][i] != l {
          assert s[1..][i] == s[i + 1];
        }
      }
    } else {
      assert NoDuplicates(s[1..]) by {
        forall i, j | 0 <= i < j < |s[1..]| ensures s[1..][i] != s[1..][j] {
          assert s[1..][i] == s[i + 1] && s[1..][j] == s[j + 1];
        }
      }
      NoDuplicatesCount(s[1..], l);
    }
  }

  /** After adding a listener to a well-formed registry, its key holds that
      listener exactly once, after the listeners it held before. */
  lemma AddRegistersOnce(r: Registry, key: string, l: Listener)
    requires WellFormed(r)
    ensures multiset(ListenersOf(AddListener(r, key, l), key))[l] == 1
    ensures ListenersOf(r, key) <= ListenersOf(AddListener(r, key, l), key)
  {
    AddKeepsWellFormed(r, key, l);
    WellFormedGet(AddListener(r, key, l), key);
    NoDuplicatesCount(ListenersOf(AddListener(r, key, l), key), l);
  }
}

=== FILE: scenarios.dfy ===
/**
 * The behaviours the dispatcher's integration tests and its documentation
 * describe, stated over the model.
 */
module Scenarios {
  import opened Wrappers
  import opened Listeners
  import opened Wildcard
  import opened Registries
  import opened EventDispatcher
  import opened Dispatch

  /** An IoC container that is never asked. */
  function NoIoc(j: nat): (v: Option<Value>) { None }

  /** The IoC answer of a singleton binding: the same instance every time. */
  function Singleton(j: nat): (v: Option<Value>) { Some(ListenerInstance(7)) }

  /** Outcomes of listeners that all return `true`. */
  function AllTrue(k: nat): (o: Outcome) { Bool(true) }

  /** Outcomes where the third listener returns `false`. */
  function ThirdFalse(k: nat): (o: Outcome) { if k == 2 then Bool(false) else Bool(true) }

  /** A callback listened to under an exact name is the one listener found
      for the name, and `hasListeners` says so. */
  lemma ListenCallback(event: string)
    requires !ContainsWildcard(event)
    ensures var d := Listen(New(), Event(event), Given(Function(1)), NoIoc).dispatcher;
      HasListeners(d, event) && SupportedPatterns(d.wildcardListeners) && GetListeners(d, event) == [Callback(1)]
  {
    ListenSingle(New(), event, Given(Function(1)), NoIoc);
    AddToEmpty(event, Callback(1));
    assert MakeListener(Given(Function(1)), NoIoc(0)) == Ok(Callback(1));
    assert Setup(New(), event, Given(Function(1)), NoIoc(0)) == Ok(Dispatcher([Entry(event, [Callback(1)])], []));
    var d := Listen(New(), Event(event), Given(Function(1)), NoIoc).dispatcher;
    assert d == Dispatcher([Entry(event, [Callback(1)])], []);
    assert Get(d.listeners, event) == Some([Callback(1)]);
    assert WildcardListenersFor(d.wildcardListeners, event) == [];
  }

  /** Adding to an empty registry stores a one-listener set. */
  lemma AddToEmpty(key: string, l: Listener)
    ensures AddListener([], key, l) == [Entry(key, [l])]
  {
    assert Set([], key, []) == [Entry(key, [])];
    var created := [Entry(key, [])];
    assert Get(created, key) == Some([]);
    assert created[0].key == key && created[1..] == [];
    assert [] + [l] == [l];
    assert Set(created, key, [l]) == [Entry(key, [l])] + [];
  }

  /** `listen` with one name is one routed setup step. */
  lemma ListenSingle(d: Dispatcher, event: string, ref: ListenerRef, make: nat -> Option<Value>)
    ensures Setup(d, event, ref, make(0)).Ok? ==>
      Listen(d, Event(event), ref, make) == ListenOutcome(Setup(d, event, ref, make(0)).value, None)
  {
    var names := [event];
    assert EventNames(Event(event)) == names;
    if Setup(d, event, ref, make(0)).Ok? {
      var d' := Setup(d, event, ref, make(0)).value;
      assert ListenFrom(d', names, 1, ref, make) == ListenOutcome(d', None);
      assert ListenFrom(d, names, 0, ref, make) == ListenFrom(d', names, 1, ref, make);
    }
  }

  /** `listen` with two names is two routed setup steps. */
  lemma ListenPair(d: Dispatcher, first: string, second: string, ref: ListenerRef, make: nat -> Option<Value>)
    requires Setup(d, first, ref, make(0)).Ok?
    requires Setup(Setup(d, first, ref, make(0)).value, second, ref, make(1)).Ok?
    ensures Listen(d, EventList([first, second]), ref, make)
      == ListenOutcome(Setup(Setup(d, first, ref, make(0)).value, second, ref, make(1)).value, None)
  {
    var names := [first, second];
    assert EventNames(EventList(names)) == names;
    var d1 := Setup(d, first, ref, make(0)).value;
    var d2 := Setup(d1, second, ref, make(1)).value;
    assert ListenFrom(d2, names, 2, ref, make) == ListenOutcome(d2, None);
    assert ListenFrom(d1, names, 1, ref, make) == ListenOutcome(d2, None);
  }

  /** A name bound as a singleton resolves to the same instance for every
      event name: each name then holds that instance and `hasListeners` is
      true for it, and listening again changes nothing. */
  lemma ListenSingletonBinding(d: Dispatcher, events: Events, name: string)
    requires Valid(d)
    ensures var d' := Listen(d, events, Named(name), Singleton).dispatcher;
      forall j :: 0 <= j < |EventNames(events)| ==>
        Registered(d', EventNames(events)[j], Handler(7)) && HasListeners(d', EventNames(events)[j])
    ensures Listen(Listen(d, events, Named(name), Singleton).dispatcher, events, Named(name), Singleton)
      == Listen(d, events, Named(name), Singleton)
  {
    var names := EventNames(events);
    forall j | 0 <= j < |names|
      ensures Registered(Listen(d, events, Named(name), Singleton).dispatcher, names[j], Handler(7))
      ensures HasListeners(Listen(d, events, Named(name), Singleton).dispatcher, names[j])
    {
      assert AllResolve(j + 1, 0, Named(name), Singleton);
      ListenRegisters(d, names, 0, Named(name), Singleton, j);
    }
    ListenIdempotent(d, events, Named(name), Singleton, Handler(7));
  }

  /** A `Listener` instance listened to under a pattern is stored as a
      one-listener set under the pattern. */
  lemma ListenWildcardInstance(pattern: string)
    requires ContainsWildcard(pattern)
    ensures Listen(New(), Event(pattern), Given(ListenerInstance(2)), NoIoc).dispatcher
      == Dispatcher([], [Entry(pattern, [Handler(2)])])
  {
    assert MakeListener(Given(ListenerInstance(2)), NoIoc(0)) == Ok(Handler(2));
    ListenedIntoEmpty(New(), pattern, Given(ListenerInstance(2)), NoIoc, Handler(2));
  }

  /** A pattern's own text, looked up, finds the pattern's listeners, and
      `hasListeners` sees the pattern key. */
  lemma PatternLookedUpByItself(pattern: string, w: seq<Listener>)
    requires ContainsWildcard(pattern) && Supported(pattern) && |w| > 0
    ensures var d := Dispatcher([], [Entry(pattern, w)]);
      HasListeners(d, pattern) && SupportedPatterns(d.wildcardListeners) && GetListeners(d, pattern) == w
  {
    PatternMatchesItself(pattern);
    LookupPatternOnly(pattern, pattern, w);
    assert Get([Entry(pattern, w)], pattern) == Some(w);
  }

  /** The dispatcher after listening with one given listener value under one name. */
  function ListenedOnce(d: Dispatcher, event: string, v: Value): (d': Dispatcher)
  {
    Listen(d, Event(event), Given(v), NoIoc).dispatcher
  }

  /** One listener `1` under `A.*`. */
  const PatternOnly := Dispatcher([], [Entry("A.*", [Callback(1)])])

  /** `listen('A.*', L)` builds `PatternOnly`. */
  lemma ListenPatternOnly()
    ensures ListenedOnce(New(), "A.*", Function(1)) == PatternOnly
  {
    assert ContainsWildcard("A.*") by { assert "A.*"[2] == '*'; }
    CallbackIntoEmpty(New(), "A.*", 1);
  }

  /** In `PatternOnly` the pattern's listener is found for `A.x`, yet
      `hasListeners`, which compares keys literally, answers false for it. */
  lemma HasListenersIsLiteral()
    ensures !HasListeners(PatternOnly, "A.x")
    ensures SupportedPatterns(PatternOnly.wildcardListeners)
    ensures GetListeners(PatternOnly, "A.x") == [Callback(1)]
  {
    assert !ContainsWildcard("A.x");
    DotStarExamples();
    LookupPatternOnly("A.*", "A.x", [Callback(1)]);
  }

  /** A setup step on a dispatcher whose target registry is empty stores a
      one-listener set there and leaves the other registry alone. */
  lemma SetupIntoEmpty(d: Dispatcher, event: string, ref: ListenerRef, resolved: Option<Value>, l: Listener)
    requires MakeListener(ref, resolved) == Ok(l)
    requires ContainsWildcard(event) ==> d.wildcardListeners == []
    requires !ContainsWildcard(event) ==> d.listeners == []
    ensures ContainsWildcard(event) ==>
      Setup(d, event, ref, resolved) == Ok(d.(wildcardListeners := [Entry(event, [l])]))
    ensures !ContainsWildcard(event) ==>
      Setup(d, event, ref, resolved) == Ok(d.(listeners := [Entry(event, [l])]))
  {
    AddToEmpty(event, l);
  }

  /** `listen` with one name on a dispatcher whose target registry is empty. */
  lemma ListenedIntoEmpty(d: Dispatcher, event: string, ref: ListenerRef, make: nat -> Option<Value>, l: Listener)
    requires MakeListener(ref, make(0)) == Ok(l)
    requires ContainsWildcard(event) ==> d.wildcardListeners == []
    requires !ContainsWildcard(event) ==> d.listeners == []
    ensures ContainsWildcard(event) ==>
      Listen(d, Event(event), ref, make).dispatcher == d.(wildcardListeners := [Entry(event, [l])])
    ensures !ContainsWildcard(event) ==>
      Listen(d, Event(event), ref, make).dispatcher == d.(listeners := [Entry(event, [l])])
  {
    SetupIntoEmpty(d, event, ref, make(0), l);
    ListenSingle(d, event, ref, make);
  }

  /** `ListenedIntoEmpty` for a callback given directly. */
  lemma CallbackIntoEmpty(d: Dispatcher, event: string, id: nat)
    requires ContainsWildcard(event) ==> d.wildcardListeners == []
    requires !ContainsWildcard(event) ==> d.listeners == []
    ensures ContainsWildcard(event) ==>
      ListenedOnce(d, event, Function(id)) == d.(wildcardListeners := [Entry(event, [Callback(id)])])
    ensures !ContainsWildcard(event) ==>
      ListenedOnce(d, event, Function(id)) == d.(listeners := [Entry(event, [Callback(id)])])
  {
    assert MakeListener(Given(Function(id)), NoIoc(0)) == Ok(Callback(id));
    ListenedIntoEmpty(d, event, Given(Function(id)), NoIoc, Callback(id));
  }

  /** Lookup in a dispatcher holding one pattern set and one exact set. */
  lemma LookupOneOfEach(pattern: string, event: string, w: seq<Listener>, x: seq<Listener>)
    requires Supported(pattern) && MatchesWildcard(event, pattern)
    ensures var d := Dispatcher([Entry(event, x)], [Entry(pattern, w)]);
      SupportedPatterns(d.wildcardListeners) && GetListeners(d, event) == w + x
  {
    var d := Dispatcher([Entry(event, x)], [Entry(pattern, w)]);
    assert d.wildcardListeners[1..] == [];
    assert WildcardListenersFor(d.wildcardListeners, event) == w;
    assert Get(d.listeners, event) == Some(x);
  }

  /** Lookup in a dispatcher holding only one pattern set. */
  lemma LookupPatternOnly(pattern: string, event: string, w: seq<Listener>)
    requires Supported(pattern) && MatchesWildcard(event, pattern)
    ensures var d := Dispatcher([], [Entry(pattern, w)]);
      SupportedPatterns(d.wildcardListeners) && GetListeners(d, event) == w
  {
    var d := Dispatcher([], [Entry(pattern, w)]);
    assert d.wildcardListeners[1..] == [];
    assert WildcardListenersFor(d.wildcardListeners, event) == w;
  }

  /** A pattern listener `1` under `A.*`, and an exact listener `2` under `A.x`. */
  const PatternAndExact := Dispatcher([Entry("A.x", [Callback(2)])], [Entry("A.*", [Callback(1)])])

  /** Listening to `A.*` and then to `A.x` builds `PatternAndExact`. */
  lemma ListenPatternThenExact()
    ensures ListenedOnce(ListenedOnce(New(), "A.*", Function(1)), "A.x", Function(2)) == PatternAndExact
  {
    assert ContainsWildcard("A.*") by { assert "A.*"[2] == '*'; }
    assert !ContainsWildcard("A.x");
    CallbackIntoEmpty(New(), "A.*", 1);
    CallbackIntoEmpty(Dispatcher([], [Entry("A.*", [Callback(1)])]), "A.x", 2);
  }

  /** In `PatternAndExact` the pattern's listener comes before the exact one
      for a matching name. */
  lemma WildcardBeforeExact()
    ensures SupportedPatterns(PatternAndExact.wildcardListeners)
    ensures GetListeners(PatternAndExact, "A.x") == [Callback(1), Callback(2)]
  {
    DotStarExamples();
    LookupOneOfEach("A.*", "A.x", [Callback(1)], [Callback(2)]);
  }

  /** One listener `1` under both `A.*` and `A.x`. */
  const SameUnderBoth := Dispatcher([Entry("A.x", [Callback(1)])], [Entry("A.*", [Callback(1)])])

  /** `listen([pattern, name], L)` stores `L` once under each key; with
      `A.*` and `A.x` it builds `SameUnderBoth`. */
  lemma ListenPatternAndName(pattern: string, event: string)
    requires ContainsWildcard(pattern) && !ContainsWildcard(event)
    ensures Listen(New(), EventList([pattern, event]), Given(Function(1)), NoIoc)
      == ListenOutcome(Dispatcher([Entry(event, [Callback(1)])], [Entry(pattern, [Callback(1)])]), None)
  {
    var ref := Given(Function(1));
    assert MakeListener(ref, NoIoc(0)) == Ok(Callback(1));
    SetupIntoEmpty(New(), pattern, ref, NoIoc(0), Callback(1));
    SetupIntoEmpty(Dispatcher([], [Entry(pattern, [Callback(1)])]), event, ref, NoIoc(1), Callback(1));
    ListenPair(New(), pattern, event, ref, NoIoc);
  }

  /** Sets are per key, so a listener stored under a matching pattern and
      under the exact name is found, and invoked, twice. */
  lemma SameListenerTwice()
    ensures SupportedPatterns(SameUnderBoth.wildcardListeners)
    ensures GetListeners(SameUnderBoth, "A.x") == [Callback(1), Callback(1)]
    ensures DispatchEvent(SameUnderBoth, "A.x", true, AllTrue).invoked == [Callback(1), Callback(1)]
  {
    DotStarExamples();
    LookupOneOfEach("A.*", "A.x", [Callback(1)], [Callback(1)]);
    NoHaltRunsAll([Callback(1), Callback(1)], AllTrue);
  }

  /** `listen(event, L)` then `forget(event)`: the name has no listeners,
      whatever the name. */
  lemma ListenThenForget(event: string)
    ensures !HasListeners(Forget(ListenedOnce(New(), event, Function(1)), event), event)
  {
    ForgetClears(ListenedOnce(New(), event, Function(1)), event);
  }

  /** `listen(['A', 'B'], L)` then `forget('A')`: `A` has no listeners, `B` still has. */
  lemma ForgetOneOfTwo()
    ensures var d := Forget(Listen(New(), EventList(["A", "B"]), Given(Function(1)), NoIoc).dispatcher, "A");
      !HasListeners(d, "A") && HasListeners(d, "B")
  {
    var names := ["A", "B"];
    var d := Listen(New(), EventList(names), Given(Function(1)), NoIoc).dispatcher;
    assert EventNames(EventList(names)) == names;
    assert AllResolve(2, 0, Given(Function(1)), NoIoc);
    ListenRegisters(New(), names, 0, Given(Function(1)), NoIoc, 1);
    ListenKeepsValid(New(), names, 0, Given(Function(1)), NoIoc);
    ForgetClears(d, "A");
    assert SameLookups(d, Forget(d, "A"), "B");
  }

  /** A listener that returns `false` third in line: with halting the fourth
      never runs; without halting all four run. */
  lemma HaltOnThird(d: Dispatcher, event: string)
    requires SupportedPatterns(d.wildcardListeners)
    requires GetListeners(d, event) == [Callback(1), Callback(2), Callback(3), Callback(4)]
    ensures Fire(d, event, ThirdFalse) == Dispatched(Run([Callback(1), Callback(2), Callback(3)], false))
    ensures Fire(d, event, ThirdFalse, false, false)
      == Dispatched(Run([Callback(1), Callback(2), Callback(3), Callback(4)], false))
  {
    var ls := GetListeners(d, event);
    HaltStopsAtFirstFalse(ls, ThirdFalse, 2);
    assert ls[..3] == [Callback(1), Callback(2), Callback(3)];
    NoHaltRunsAll(ls, ThirdFalse);
  }

  /** The first answer of a binding that builds a new instance on every call. */
  function FirstInstance(j: nat): (v: Option<Value>) { Some(ListenerInstance(1)) }

  /** The second answer of that binding. */
  function SecondInstance(j: nat): (v: Option<Value>) { Some(ListenerInstance(2)) }

  /** One instance `1` listened to under an exact name. */
  function FirstListened(event: string): (d: Dispatcher)
  {
    Dispatcher([Entry(event, [Handler(1)])], [])
  }

  /** Listening by name with the first answer of the binding builds `FirstListened`. */
  lemma ListenFirstInstance(event: string)
    requires !ContainsWildcard(event)
    ensures Listen(New(), Event(event), Named("counting"), FirstInstance).dispatcher == FirstListened(event)
  {
    assert MakeListener(Named("counting"), FirstInstance(0)) == Ok(Handler(1));
    ListenedIntoEmpty(New(), event, Named("counting"), FirstInstance, Handler(1));
  }

  /** A binding that is not a singleton yields a new instance on every
      `listen`, so listening by name again registers a second listener. */
  lemma FreshInstancesAreNotDeduplicated(event: string)
    requires !ContainsWildcard(event)
    ensures ListenersOf(Listen(FirstListened(event), Event(event), Named("counting"), SecondInstance).dispatcher.listeners, event)
      == [Handler(1), Handler(2)]
  {
    var d1 := FirstListened(event);
    ListenSingle(d1, event, Named("counting"), SecondInstance);
    assert MakeListener(Named("counting"), SecondInstance(0)) == Ok(Handler(2));
    assert Get(d1.listeners, event) == Some([Handler(1)]);
  }

  /** The pattern `order.*` matches `order.created`. */
  lemma OrderPattern()
    ensures Supported("order.*") && MatchesWildcard("order.created", "order.*")
  {
    assert Supported("order.*");
    assert Glob("order.*", "order.created") by {
      assert "order." + "*" == "order.*";
      assert "order.created"[..6] == "order.";
      assert Glob("order.", "order.") by { PatternMatchesItself("order."); }
      assert NoLineTerminator("created");
      assert "order.created"[6..] == "created";
      PrefixPattern("order.", "order.created");
    }
  }

  /** One listener `1` under `order.*`. */
  const OrderListener := Dispatcher([], [Entry("order.*", [Callback(1)])])

  /** `listen('order.*', L)` builds `OrderListener`. */
  lemma ListenOrderPattern()
    ensures ListenedOnce(New(), "order.*", Function(1)) == OrderListener
  {
    assert ContainsWildcard("order.*") by { assert "order.*"[6] == '*'; }
    CallbackIntoEmpty(New(), "order.*", 1);
  }

  /** Firing a name that the one stored pattern matches invokes the
      pattern's one listener once. */
  lemma PatternListenerFiresOnce(pattern: string, event: string)
    requires Supported(pattern) && MatchesWildcard(event, pattern)
    ensures var d := Dispatcher([], [Entry(pattern, [Callback(1)])]);
      SupportedPatterns(d.wildcardListeners) && Fire(d, event, AllTrue) == Dispatched(Run([Callback(1)], false))
  {
    LookupPatternOnly(pattern, event, [Callback(1)]);
    NoHaltRunsAll([Callback(1)], AllTrue);
  }

  /** `fire('order.created')` on `OrderListener` invokes the listener once. */
  lemma OrderCreated()
    ensures SupportedPatterns(OrderListener.wildcardListeners)
    ensures Fire(OrderListener, "order.created", AllTrue) == Dispatched(Run([Callback(1)], false))
  {
    OrderPattern();
    PatternListenerFiresOnce("order.*", "order.created");
  }

  /** The pattern `A.*` matches `'A.' + word` for every word free of line
      terminators. */
  lemma APatternMatchesWord(word: string)
    requires NoLineTerminator(word)
    ensures Supported("A.*") && MatchesWildcard("A." + word, "A.*")
  {
    assert Supported("A.*");
    var event := "A." + word;
    assert Glob("A.*", event) by {
      assert "A." + "*" == "A.*";
      assert event[..2] == "A.";
      assert event[2..] == word;
      PatternMatchesItself("A.");
      PrefixPattern("A.", event);
    }
  }

  /** After `listen('A.*', L)`, firing `'A.' + word` invokes `L` exactly
      once, whatever the word. */
  lemma WildcardWordFiresOnce(word: string)
    requires NoLineTerminator(word)
    ensures SupportedPatterns(ListenedOnce(New(), "A.*", Function(1)).wildcardListeners)
    ensures Fire(ListenedOnce(New(), "A.*", Function(1)), "A." + word, AllTrue) == Dispatched(Run([Callback(1)], false))
  {
    ListenPatternOnly();
    APatternMatchesWord(word);
    PatternListenerFiresOnce("A.*", "A." + word);
  }

  /** In the background nothing is invoked by `fire` itself. */
  lemma BackgroundFireDefers(d: Dispatcher, event: string, outcome: nat -> Outcome, halt: bool)
    requires SupportedPatterns(d.wildcardListeners)
    ensures Fire(d, event, outcome, true, halt) == Deferred
  {
  }
}

=== FILE: wildcard.dfy ===
/**
 * Wildcard detection and matching (`_containsWildcard`, `_matchesWildcard`).
 *
 * The dispatcher matches an event name against a stored pattern by building
 * the regular expression `'^' + pattern.split('*').join('.*') + '$'` and
 * testing the name with it. This module models both sides: the regular
 * expression that is built, its meaning as a language of strings, and a
 * direct recursive glob matcher proved to accept exactly that language.
 */
module Wildcard {

  /** The characters an unflagged JavaScript `.` does not match. */
  predicate IsLineTerminator(c: char)
  {
    c == '\n' || c == '\r' || c == '\U{2028}' || c == '\U{2029}'
  }

  /** Regular-expression syntax other than `.` and `*`. A pattern holding one
      of these is outside the modelled fragment. */
  predicate IsOtherRegexSyntax(c: char)
  {
    || c == '^' || c == '$' || c == '\\' || c == '+' || c == '?' || c == '|'
    || c == '(' || c == ')' || c == '[' || c == ']' || c == '{' || c == '}'
  }

  /** A stored pattern whose characters are all literal, except `.` and `*`. */
  predicate Supported(pattern: string)
  {
    forall i :: 0 <= i < |pattern| ==> !IsOtherRegexSyntax(pattern[i])
  }

  /** `s.indexOf(c)`: the first position of `c` in `s`, or -1. */
  function IndexOf(s: string, c: char): (r: int)
    ensures r == -1 <==> c !in s
    ensures r != -1 ==> 0 <= r < |s| && s[r] == c && c !in s[..r]
  {
    if |s| == 0 then -1
    else if s[0] == c then 0
    else
      var r := IndexOf(s[1..], c);
      assert s[1..][..if r == -1 then 0 else r] == s[1..1 + if r == -1 then 0 else r];
      if r == -1 then -1 else r + 1
  }

  /** `_containsWildcard`: `indexOf('*')` finds a position, that is, the
      name holds a `*`. */
  predicate ContainsWildcard(event: string)
    ensures ContainsWildcard(event) <==> '*' in event
  {
    IndexOf(event, '*') != -1
  }

  // ---------------------------------------------------------------------
  // Building the regular expression
  // ---------------------------------------------------------------------

  /** `s.split([sep])`: the maximal `sep`-free pieces of `s`, in order. */
  function Split(s: string, sep: char): (pieces: seq<string>)
    ensures |pieces| >= 1
    ensures forall i :: 0 <= i < |pieces| ==> sep !in pieces[i]
  {
    if |s| == 0 then [""]
    else
      var rest := Split(s[1..], sep);
      if s[0] == sep then [""] + rest
      else [[s[0]] + rest[0]] + rest[1..]
  }

  /** `pieces.join(glue)`. */
  function Join(pieces: seq<string>, glue: string): (joined: string)
  {
    if |pieces| == 0 then ""
    else if |pieces| == 1 then pieces[0]
    else pieces[0] + glue + Join(pieces[1..], glue)
  }

  /** Joining the pieces of a split with the separator gives back the string. */
  lemma {:induction false} JoinSplit(s: string, sep: char)
    ensures Join(Split(s, sep), [sep]) == s
  {
    if |s| > 0 {
      JoinSplit(s[1..], sep);
      var rest := Split(s[1..], sep);
      if s[0] == sep {
        assert s == [sep] + s[1..];
      } else {
        JoinHead([s[0]], rest, [sep]);
        assert s == [s[0]] + s[1..];
      }
    }
  }

  /** Prepending to the first piece prepends to the joined string. */
  lemma JoinHead(prefix: string, pieces: seq<string>, glue: string)
    requires |pieces| >= 1
    ensures Join([prefix + pieces[0]] + pieces[1..], glue) == prefix + Join(pieces, glue)
  {
    var ps := [prefix + pieces[0]] + pieces[1..];
    assert ps[1..] == pieces[1..];
  }

  /** The pattern with every `*` replaced by `.*`, one character at a time. */
  function Translate(pattern: string): (re: string)
  {
    if |pattern| == 0 then ""
    else (if pattern[0] == '*' then ".*" else [pattern[0]]) + Translate(pattern[1..])
  }

  /** `pattern.split('*').join('.*')` replaces each `*` by `.*` and keeps the rest. */
  lemma {:induction false} SplitJoinTranslates(pattern: string)
    ensures Join(Split(pattern, '*'), ".*") == Translate(pattern)
  {
    if |pattern| > 0 {
      SplitJoinTranslates(pattern[1..]);
      var rest := Split(pattern[1..], '*');
      if pattern[0] != '*' {
        JoinHead([pattern[0]], rest, ".*");
      }
    }
  }

  /** The source text of the regular expression `_matchesWildcard` builds. */
  function RegexSource(pattern: string): (source: string)
  {
    "^" + Join(Split(pattern, '*'), ".*") + "$"
  }

  // ---------------------------------------------------------------------
  // Meaning of the regular expression
  // ---------------------------------------------------------------------

  /** A single-character regular expression: `.` or a literal character. */
  datatype Atom = AnyChar | Char(c: char)

  /** An atom matched once, or an atom under the `*` quantifier. */
  datatype Term = Once(atom: Atom) | Star(atom: Atom)

  function AtomOf(c: char): (a: Atom)
  {
    if c == '.' then AnyChar else Char(c)
  }

  predicate Accepts(a: Atom, c: char)
  {
    match a
    case AnyChar => !IsLineTerminator(c)
    case Char(d) => c == d
  }

  /** Regular-expression text built from literals, `.` and quantifying `*`,
      where every `*` follows an atom. */
  predicate Parseable(re: string)
    decreases |re|
  {
    if |re| == 0 then true
    else
      && re[0] != '*'
      && !IsOtherRegexSyntax(re[0])
      && if |re| >= 2 && re[1] == '*' then Parseable(re[2..]) else Parseable(re[1..])
  }

  /** The terms of a regular expression, read left to right. */
  function Parse(re: string): (terms: seq<Term>)
    requires Parseable(re)
    decreases |re|
  {
    if |re| == 0 then []
    else if |re| >= 2 && re[1] == '*' then [Star(AtomOf(re[0]))] + Parse(re[2..])
    else [Once(AtomOf(re[0]))] + Parse(re[1..])
  }

  /** Full-string membership in the language of a sequence of terms: the
      meaning of the terms between the anchors `^` and `$`. */
  ghost predicate InLanguage(terms: seq<Term>, s: string)
    decreases |terms|
  {
    if |terms| == 0 then |s| == 0
    else match terms[0]
      case Once(a) => |s| > 0 && Accepts(a, s[0]) && InLanguage(terms[1..], s[1..])
      case Star(a) =>
        exists k :: 0 <= k <= |s| && AllAccepted(a, s[..k]) && InLanguage(terms[1..], s[k..])
  }

  ghost predicate AllAccepted(a: Atom, w: string)
  {
    forall i :: 0 <= i < |w| ==> Accepts(a, w[i])
  }

  /** `regex.test(s)` for an anchored regular expression `^…$`. */
  ghost predicate Test(regex: string, s: string)
    requires |regex| >= 2 && regex[0] == '^' && regex[|regex| - 1] == '$'
    requires Parseable(regex[1..|regex| - 1])
  {
    InLanguage(Parse(regex[1..|regex| - 1]), s)
  }

  /** The term a pattern character becomes. */
  function TermOf(c: char): (t: Term)
  {
    if c == '*' then Star(AnyChar) else Once(AtomOf(c))
  }

  function Terms(pattern: string): (terms: seq<Term>)
    ensures |terms| == |pattern|
    ensures forall i :: 0 <= i < |pattern| ==> terms[i] == TermOf(pattern[i])
  {
    if |pattern| == 0 then [] else [TermOf(pattern[0])] + Terms(pattern[1..])
  }

  /** A translated pattern never starts with a quantifier. */
  lemma TranslateHead(pattern: string)
    requires |Translate(pattern)| > 0
    ensures Translate(pattern)[0] != '*'
  {
  }

  /** The regular expression built from a supported pattern parses into one
      term per pattern character. */
  lemma {:induction false} ParseTranslate(pattern: string)
    requires Supported(pattern)
    ensures Parseable(Translate(pattern))
    ensures Parse(Translate(pattern)) == Terms(pattern)
  {
    if |pattern| > 0 {
      var rest := pattern[1..];
      assert Supported(rest) by {
        forall i | 0 <= i < |rest| ensures !IsOtherRegexSyntax(rest[i]) {
          assert rest[i] == pattern[i + 1];
        }
      }
      ParseTranslate(rest);
      var re := Translate(pattern);
      if pattern[0] == '*' {
        assert re == ".*" + Translate(rest);
        assert re[2..] == Translate(rest);
      } else {
        assert re == [pattern[0]] + Translate(rest);
        assert re[1..] == Translate(rest);
        if |Translate(rest)| > 0 {
          TranslateHead(rest);
        }
        assert !IsOtherRegexSyntax(pattern[0]);
      }
    }
  }

  /** The regular expression of a supported pattern is well formed and anchored. */
  lemma RegexShape(pattern: string)
    requires Supported(pattern)
    ensures var re := RegexSource(pattern);
      && |re| >= 2 && re[0] == '^' && re[|re| - 1] == '$'
      && re[1..|re| - 1] == Translate(pattern)
      && Parseable(re[1..|re| - 1])
  {
    SplitJoinTranslates(pattern);
    ParseTranslate(pattern);
    var re := RegexSource(pattern);
    assert re[1..|re| - 1] == Translate(pattern);
  }

  // ---------------------------------------------------------------------
  // The glob matcher
  // ---------------------------------------------------------------------

  /** Whether a non-`*` pattern character matches a name character. */
  predicate CharMatches(p: char, c: char)
  {
    Accepts(AtomOf(p), c)
  }

  /** Anchored glob matching: `*` matches any run of non-line-terminator
      characters, `.` any one of them, every other character itself. */
  predicate Glob(pattern: string, s: string)
    decreases |pattern|, |s|
  {
    if |pattern| == 0 then |s| == 0
    else if pattern[0] == '*' then
      Glob(pattern[1..], s) || (|s| > 0 && !IsLineTerminator(s[0]) && Glob(pattern, s[1..]))
    else |s| > 0 && CharMatches(pattern[0], s[0]) && Glob(pattern[1..], s[1..])
  }

  /** Peeling the first character off a run of accepted characters. */
  lemma AllAcceptedCons(a: Atom, s: string, k: nat)
    requires 0 < k <= |s|
    ensures AllAccepted(a, s[..k]) <==> Accepts(a, s[0]) && AllAccepted(a, s[1..][..k - 1])
  {
    assert s[..k] == [s[0]] + s[1..][..k - 1];
  }

  /** The glob matcher accepts exactly the language of the pattern's terms. */
  lemma {:induction false} GlobIsLanguage(pattern: string, s: string)
    ensures Glob(pattern, s) <==> InLanguage(Terms(pattern), s)
    decreases |pattern|, |s|
  {
    if |pattern| > 0 {
      var ts := Terms(pattern);
      assert ts[1..] == Terms(pattern[1..]);
      if pattern[0] == '*' {
        assert ts[0] == Star(AnyChar);
        GlobIsLanguage(pattern[1..], s);
        if |s| > 0 {
          GlobIsLanguage(pattern, s[1..]);
        }
        if Glob(pattern, s) {
          if Glob(pattern[1..], s) {
            assert s[..0] == [] && s[0..] == s;
            assert AllAccepted(AnyChar, s[..0]);
          } else {
            var k :| 0 <= k <= |s| - 1 && AllAccepted(AnyChar, s[1..][..k])
                     && InLanguage(ts[1..], s[1..][k..]);
            assert s[1..][k..] == s[k + 1..];
            AllAcceptedCons(AnyChar, s, k + 1);
          }
        }
        if InLanguage(ts, s) {
          var k :| 0 <= k <= |s| && AllAccepted(AnyChar, s[..k]) && InLanguage(ts[1..], s[k..]);
          if k == 0 {
            assert s[k..] == s;
          } else {
            AllAcceptedCons(AnyChar, s, k);
            assert s[1..][k - 1..] == s[k..];
            assert InLanguage(ts, s[1..]);
          }
        }
      } else {
        assert ts[0] == Once(AtomOf(pattern[0]));
        if |s| > 0 {
          GlobIsLanguage(pattern[1..], s[1..]);
        }
      }
    }
  }

  /** What testing `event` with the regular expression built from `wildcard` answers. */
  ghost predicate RegexMatches(event: string, wildcard: string)
    requires Supported(wildcard)
  {
    RegexShape(wildcard);
    Test(RegexSource(wildcard), event)
  }

  /**
   * `_matchesWildcard(event, wildcard)`: the glob matcher answers exactly as
   * testing the event name with `'^' + wildcard.split('*').join('.*') + '$'`.
   */
  function MatchesWildcard(event: string, wildcard: string): (b: bool)
    requires Supported(wildcard)
    ensures b <==> RegexMatches(event, wildcard)
  {
    RegexShape(wildcard);
    ParseTranslate(wildcard);
    GlobIsLanguage(wildcard, event);
    Glob(wildcard, event)
  }

  // ---------------------------------------------------------------------
  // Consequences of the matcher
  // ---------------------------------------------------------------------

  predicate NoLineTerminator(s: string)
  {
    forall i :: 0 <= i < |s| ==> !IsLineTerminator(s[i])
  }

  /** A trailing `*` matches any run of non-line-terminator characters. */
  lemma {:induction false} TrailingStar(s: string)
    ensures Glob("*", s) <==> NoLineTerminator(s)
    decreases |s|
  {
    assert "*"[1..] == "";
    if |s| > 0 {
      TrailingStar(s[1..]);
      assert NoLineTerminator(s) <==> !IsLineTerminator(s[0]) && NoLineTerminator(s[1..]) by {
        assert forall i :: 0 < i < |s| ==> s[i] == s[1..][i - 1];
      }
    }
  }

  /** A star-free prefix followed by `*` matches exactly the names that start
      with a match of the prefix and go on with non-line-terminator characters:
      matching is anchored at the start, open at the end. */
  lemma {:induction false} PrefixPattern(prefix: string, s: string)
    requires '*' !in prefix
    ensures Glob(prefix + "*", s) <==>
      |s| >= |prefix| && Glob(prefix, s[..|prefix|]) && NoLineTerminator(s[|prefix|..])
    decreases |prefix|
  {
    if |prefix| == 0 {
      assert prefix + "*" == "*";
      assert s[..0] == "" && s[0..] == s;
      TrailingStar(s);
    } else {
      var p := prefix + "*";
      assert p[0] == prefix[0] && p[1..] == prefix[1..] + "*";
      assert prefix[0] in prefix;
      if |s| > 0 {
        assert prefix[1..] + "*" == p[1..];
        assert forall c :: c in prefix[1..] ==> c in prefix;
        PrefixPattern(prefix[1..], s[1..]);
        if |s| >= |prefix| {
          assert s[..|prefix|][1..] == s[1..][..|prefix| - 1];
          assert s[1..][|prefix| - 1..] == s[|prefix|..];
        }
      }
    }
  }

  /** Every pattern matches its own text (a line terminator in it matches
      itself literally), so looking up the listeners of a pattern finds the
      pattern's own listeners. */
  lemma {:induction false} PatternMatchesItself(pattern: string)
    ensures Glob(pattern, pattern)
    decreases |pattern|
  {
    if |pattern| > 0 {
      var rest := pattern[1..];
      PatternMatchesItself(rest);
      if pattern[0] == '*' {
        // the `*` consumes its own character, then the rest matches itself
        StarSkipsOne(rest, pattern);
      }
    }
  }

  /** A leading `*` may consume one non-line-terminator character. */
  lemma StarSkipsOne(rest: string, s: string)
    requires |s| > 0 && !IsLineTerminator(s[0]) && Glob(rest, s[1..])
    ensures Glob("*" + rest, s)
  {
    var p := "*" + rest;
    assert p[1..] == rest;
    assert Glob(p, s[1..]);
  }

  /** How the pattern `A.*` of the dispatcher's tests matches: anchored at
      both ends, with the unescaped `.` matching any character. */
  lemma DotStarExamples()
    ensures MatchesWildcard("A.x", "A.*") && MatchesWildcard("A.", "A.*")
    ensures !MatchesWildcard("A", "A.*") && !MatchesWildcard("B.x", "A.*")
    ensures MatchesWildcard("Ax", "A.*")
  {
    assert Supported("A.*");
  }

  /** A `*` between literals matches one run and nothing past the anchor. */
  lemma InnerStarExamples()
    ensures MatchesWildcard("a.x.c", "a.*.c") && !MatchesWildcard("a.x.y", "a.*.c")
  {
    assert Supported("a.*.c");
  }
}

=== FILE: wrappers.dfy ===
/** Small failure-carrying datatypes shared by the other modules. */
module Wrappers {

  /** A value that may be missing: JavaScript's `undefined` from `Map.get`, or a call that threw. */
  datatype Option<+T> = None | Some(value: T) {
    function GetOr(default: T): (v: T) {
      match this
      case Some(v) => v
      case None => default
    }
  }

  /** The result of an operation that either produces a value or throws. */
  datatype Result<+T, +E> = Ok(value: T) | Err(error: E)
}
